=== FILE: README.md ===
# npmapper script resolver in Dafny

npmapper maps the `scripts` of a `package.json` into a tree. It starts from one
script, or from every script in declared order. Each script is split into serial
steps at `&&`:

- a step that begins with `npm run` and white space is a nested script, resolved
  again in the same manifest;
- any other step is a command.

A command, and a script referenced without `--prefix`, carries the parameters
parsed from its `-` flags. A flag value that holds the marker
`$npm_package_config_` anywhere names the property `<prop>` left once the first
marker is removed. It is rendered as the configured value of `<prop>`
(`undefined` when there is none) followed by
` (from npm configuration named "<prop>")`. A script gets its `pre<name>` and
`post<name>` hooks when the manifest defines them, and `"N/A"` otherwise. A
reference with `--prefix <dir>` is resolved in the `package.json` of that
directory. When `<dir>` holds the marker, the directory is the raw configured
value of its property, with no note appended. The result is the script found
there, without the referring flags; it records that manifest's path as its
`location`, unless that manifest is the one being mapped.

This project models that resolver (`src/index.js`) and the lexical rules it uses
(the regexes and constants of `src/constants.js`). It proves what the resolver
builds for each kind of reference.

## Layout

| file | module | contents |
|---|---|---|
| `results.dfy` | `Results` | `Option`, and `Result` with early return (`:-`) |
| `text.dfy` | `Text` | JavaScript string primitives: `\s`, `trim`, `indexOf`, non-global `replace`, `split` and `join` |
| `patterns.dfy` | `Patterns` | the constants, and each regex of `src/constants.js` written as a scanner over `seq<char>` |
| `actions.dfy` | `Actions` | the tree (`Action = Command \| Script`), `Param`, `Hook`, `Manifest`, `Workspace` and the errors |
| `tokenizer.dfy` | `Tokenizer` | `extractParamsFromActionStr` and `getSingleCommandObject` |
| `resolver.dfy` | `Resolver` | `getSingleScriptObject`, `getActionsArray`, `getScriptsArray`, `parseNpmScripts` and the resolving part of `mapNpmScripts` |
| `resolver_props.dfy` | `ResolverProperties` | what a resolved tree looks like, order preservation, prefix hops and fuel monotonicity |

### Modelling choices

- **Manifests.** The file system is a `Workspace`:
  - a map from manifest path to `Manifest` (the `scripts` table, its key order and the optional `config` table);
  - a function from a directory to its manifest path, which stands in for `path.resolve(dir, 'package.json')`.

  A path that is not in the map is the "No package.json file can be found" error. `Manifest.order` stands for `Object.keys(scripts)` and is not tied to the keys of `scripts`, so "one result per key" means one result per entry of `order`; an entry that `scripts` lacks is "not found".
- **Origin path.** The module variable `originJsonFilePath` becomes the parameter `origin`.
- **Recursion bound.** The source recurses through nested steps, hooks and prefix hops with no cycle guard. Each call of the resolver for one reference spends one unit of `fuel`, and running out gives the error `OutOfFuel`. The model makes no claim that resolution terminates. `ResolveFuelMonotone` and its companions prove that fuel only bounds the resolution: a result that did not run out of fuel is the same with any larger fuel.
- **Regexes.** Each regex is a scanner.
  - `PARAMS_REGEX` becomes flag starts (a `-` preceded by white space) and spans that stop before white space followed by `-`, before `&&`, or at a line terminator.
  - `COMMAND_NAME_REGEX` becomes a lazy scan tried from each start position, as the regex engine does.
  - `PREFIX_VALUE_REGEX` becomes a greedy white-space skip followed by either a quoted run or a run of non-white-space.
  - White space is ECMAScript's `\s`: the white-space and line-terminator characters that `trim` also removes.
- **`lastIndex`.** The global `PARAMS_REGEX` keeps `lastIndex` between calls. Each `.test` on it either fails, which resets `lastIndex`, or is followed by `.match` or `.replace`, which leave `lastIndex` at 0 when they finish. So "has a flag" is a pure predicate.
- **Empty script names.** An undefined `desiredScript` and the empty string are both falsy in `parseNpmScripts`. Both are `""` here, meaning "every script".
- **Prefix errors.** A configuration-marked prefix in a manifest without `config` throws a `TypeError` in the source. Here it is `ConfigTableMissing`. A configuration-marked prefix that names a missing property makes `path.resolve(undefined)` throw. Here it is `PrefixPathUndefined`.
- **Empty hop.** A hop into another manifest that yields no script throws at `src/index.js:66`. Here it is `NothingToLocate`.
- **Self-targeting prefix.** A prefix reference whose `--prefix` is not preceded by white space, such as the name in the nested step `npm run --prefix dir build`, contains no flag span. `PARAMS_REGEX` removes nothing from it, so the hop asks the other manifest for the same reference, and the source recurses without bound. `ResolverProperties.SelfTargetNeverResolves` proves that such a reference resolves with no amount of fuel.

## Model

| member | source | states |
|---|---|---|
| Text.TrimSpec | src/index.js:135 | `trim` returns the infix of its input left after white space at both ends is removed; it neither begins nor ends with white space |
| Text.TrimIdempotent | src/index.js:130 | trimming an already trimmed name changes nothing |
| Text.RemoveFirst | src/index.js:110 | a non-global `replace` with `''` removes only the first occurrence; putting the pattern back at that index restores the input, and without an occurrence the input is unchanged |
| Text.Split | src/index.js:135 | `split` gives at least one piece, two or more exactly when the separator occurs, no piece contains the separator, and the first piece is the text before the first occurrence |
| Text.SplitCuts | src/index.js:135 | `split` scans left to right: the pieces are laid out in the text with the separator between consecutive ones, each cut is the first occurrence of the separator at or after the start of its piece, and the last piece holds none and runs to the end |
| Text.CutsDetermineSplit | src/index.js:135 | conversely, any list of pieces laid out in the text by such leftmost cuts is the result of `split` |
| Text.JoinSplit | src/index.js:135 | joining the pieces of `split` with the same separator gives back the original string |
| Patterns.SpanEnd | src/constants.js:17 | a flag span extends up to the first white-space-then-dash, `&&` or line terminator, or to the end, and no earlier position stops it |
| Patterns.NoFlagStartInsideSpan | src/constants.js:17 | no other flag starts inside a flag span, so the global matches do not overlap |
| Patterns.NextFlagStart | src/constants.js:17 | the search for the next flag finds the leftmost dash preceded by white space at or after the current index, or reports that none exists |
| Patterns.FlagStartsFrom | src/constants.js:17 | the flag starts are exactly the positions whose dash is preceded by white space, strictly increasing; a dash inside a word is not one |
| Patterns.FlagSpansAreFlagStarts | src/index.js:180 | `match` with the global flag regex returns one span per flag start, left to right, and finds a span exactly when a flag start exists |
| Patterns.HasFlagsIffFlagStarts | src/index.js:122 | the `test` for parameters succeeds exactly when the string has a flag start |
| Patterns.StripFlags | src/index.js:117 | removing every flag span leaves no flag span, and a string without flags is unchanged |
| Patterns.StripFlagsKeepsGaps | src/index.js:117 | `replace(PARAMS_REGEX, '')` keeps exactly the text between the flag spans that start at the flag starts, joined; putting each span back between its neighbouring gaps rebuilds the input |
| Patterns.LazyNameEnd | src/constants.js:16 | the lazy `.*?(?=\s-)` scan stops at the first white-space-then-dash and never crosses a line terminator; it finds nothing exactly when every white-space-then-dash at or after the start lies on a later line |
| Patterns.CommandNameBeforeFirstFlag | src/index.js:127 | when flags exist the command name is found; it is the text before the white space of the first flag, from the start of that flag's line, and it is not trimmed |
| Patterns.CommandNameIsShortestPrefix | src/constants.js:16 | on a single line the command name is the shortest prefix of the string followed by white space and a dash |
| Patterns.CommandNameExists | src/index.js:238 | whenever the parameter test succeeds, `COMMAND_NAME_REGEX.exec` matches, so taking `[0]` cannot fail |
| Patterns.FirstQuietFlag | src/constants.js:19 | the alternation `--silent\|--quiet` matches at the leftmost position where either flag begins |
| Patterns.RemoveQuietFlag | src/index.js:213 | only the first quiet flag is removed, and putting it back restores the input; without one the input is unchanged |
| Patterns.NestedScriptNameSpec | src/index.js:210-213 | the nested name is the step after `npm run` and its white-space character, with the first quiet flag removed and white space removed at both ends |
| Patterns.NestedScriptNameOfStep | src/index.js:209-214 | `npm run ` followed by a trimmed name without a quiet flag is a nested step that names exactly that name |
| Patterns.FirstPrefixFlag | src/constants.js:14 | the prefix value is searched after the leftmost `--prefix` followed by white space |
| Patterns.PrefixFlagDetected | src/index.js:103-104 | once `PREFIX_REGEX` matches, `PREFIX_VALUE_REGEX` matches too, so `exec(...)[1]` cannot fail |
| Patterns.PrefixValueStartSpec | src/constants.js:14 | the value starts after the leftmost `--prefix` and the whole run of white space after it |
| Patterns.PrefixValueSpec | src/index.js:104 | the captured prefix value is a double-quoted run with its quotes when a closing quote follows, and otherwise the run of non-white-space up to the next white space or the end |
| Patterns.ValueAtSpec | src/constants.js:14 | the capture group `("[^"]*"\|\S*)` at a position is a quoted run or a maximal run of non-white-space |
| Patterns.PrefixValueOf | src/index.js:104 | `--prefix ` followed by a value with no white space that does not open a quote captures exactly that value, when the text before the flag holds no `--prefix` followed by white space |
| Patterns.ConfigPropSpec | src/index.js:110 | the configuration property is the value with its first `$npm_package_config_` removed, wherever in the value that marker occurs |
| Tokenizer.SplitParam | src/index.js:182-184 | a span with `=` is split on `=`, any other on spaces; the name is the text before the first separator, the value is the text between the first and second separators, and the value is absent exactly when no separator occurs |
| Tokenizer.SplitParamBare | src/index.js:182-184 | a flag without `=` and without a space is all name, and its value is `undefined` |
| Tokenizer.SplitParamOnEquals | src/index.js:182-184 | `name=v=rest` gives name `name` and value `v`: only the first two pieces are kept |
| Tokenizer.ValueBetweenEquals | src/index.js:184 | for a span whose first `=` is at `k`, the value runs from after it to the next `=` or the end |
| Tokenizer.SplitParamDoubledSpace | src/index.js:183-184 | two spaces between name and value make the value the empty string |
| Tokenizer.SplitParamKeepsDash | src/index.js:184-190 | a parameter name keeps the leading dash of its span |
| Tokenizer.ConfigReferenceResolved | src/index.js:185-187 | the value `$npm_package_config_<prop>` renders as the configured value of `prop`, or `undefined` when there is none, followed by ` (from npm configuration named "<prop>")` |
| Tokenizer.ParamOfConfigReference | src/index.js:182-191 | the flag `name=$npm_package_config_<prop>` becomes the parameter `name` whose value is the rendered configuration value of `prop` |
| Tokenizer.ExtractParams | src/index.js:179-195 | one parameter per flag start, in source order; the parameter at position k comes from the k-th flag span, and every name begins with a dash |
| Tokenizer.SingleCommand | src/index.js:232-241 | a command without flags keeps its exact text and has no parameters; otherwise its name is the untrimmed text before the first flag on that flag's line, and its parameters are the extracted ones |
| Resolver.ShownNameIsCommandName | src/index.js:127 | the name reported for a reference with flags is exactly the match of `COMMAND_NAME_REGEX` |
| Resolver.LookupKey | src/index.js:130 | the key a reference is looked up by has no flags, has no white space at either end, and contains `--prefix ` only if the reference does |
| Resolver.LookupKeySpec | src/index.js:127-130 | the key is the reported name with the white space at both ends removed: an infix of that name, with only white space outside it and none at its own ends |
| Resolver.StepsOf | src/index.js:135 | a body has one step per piece of its split at `&&`, at least one; no step contains `&&`, begins with white space or ends with white space |
| Resolver.PrefixDirectoryPlain | src/index.js:103-114 | when the text before it holds no `--prefix` followed by white space, `--prefix <dir>`, with a directory that has no white space, does not open a quote and has no configuration marker, hops into `dir` itself |
| Resolver.PrefixDirectoryFromConfig | src/index.js:103-114 | when the text before it holds no `--prefix` followed by white space, `--prefix $npm_package_config_<prop>` hops into the raw configured value of `prop`; without a `config` table, or without `prop` in it, the hop fails |
| Resolver.PrefixTarget | src/index.js:117 | the target of a prefix reference contains no flag |
| Resolver.PrefixTargetKeepsGaps | src/index.js:117 | the target is the text between the reference's flag spans, joined and trimmed; a reference without flags is only trimmed |
| Resolver.Locate | src/index.js:65-67 | marking a script with a location changes its location and nothing else |
| Resolver.LookupOf | src/index.js:103-135 | a reference is redirected exactly when it contains `--prefix `; a found key is defined, non-empty and free of flags |
| Resolver.ResolveStep | src/index.js:209-218 | a nested step yields a script; any other step always yields a command |
| Resolver.ResolveAll | src/index.js:77-87 | one script per requested name |
| Resolver.ParseNpmScripts | src/index.js:55-69 | an absent manifest is an error; otherwise one script per mapped name, and a tree from a manifest other than the origin has its first script located at that manifest's path |
| Resolver.MapNpmScripts | src/index.js:35-40 | a target directory without a manifest is an error; otherwise there is one result per requested script, or per key when none is requested |
| ResolverProperties.MapResolvesInOrigin | src/index.js:35-40 | the manifest of the target directory is the origin: result i is mapped name i resolved in that manifest |
| ResolverProperties.HookShape | src/index.js:146-163 | a hook is "N/A" exactly when `pre`/`post` plus the key has no truthy body; otherwise it is that script, resolved in the same manifest, named by the hook key, with no parameters and no location |
| ResolverProperties.StepsResolvedAs | src/index.js:203-224 | `getActionsArray` keeps the order of the steps: the action at position i is step i resolved on its own, a nested step as the script it names and any other as its command |
| ResolverProperties.DirectShape | src/index.js:120-167 | a key without a truthy body is "not found" with that key; a found script reports the reference (or its text before the first flag), with one parameter per flag span |
| ResolverProperties.LookupShape | src/index.js:121-135 | a lookup fails exactly when the trimmed name is empty or has no truthy body; otherwise it yields the shown name, one parameter per flag span, and the trimmed steps of the body |
| ResolverProperties.FoundActions | src/index.js:133-136 | a found script has one action per `&&`-piece of its body, and action i is the i-th piece, trimmed and resolved in the same manifest |
| ResolverProperties.FoundHooks | src/index.js:140-163 | the `pre` and `post` fields of a found script hold the hook scripts exactly when the manifest defines them, each named by its hook name |
| ResolverProperties.PlainShape | src/index.js:130-144 | a resolved reference without flags reports its own text, no parameters and no location |
| ResolverProperties.StepsCoverBody | src/index.js:135 | the steps are the pieces of the body cut at `&&`, trimmed, and the pieces joined back with `&&` give the body |
| ResolverProperties.ResolveAllInOrder | src/index.js:77-87 | the i-th result is the i-th name resolved on its own |
| ResolverProperties.ParseInOrder | src/index.js:55-69 | the results are the mapped names resolved in order; only the first is marked with the manifest path, and only when that manifest is not the origin |
| ResolverProperties.PrefixHop | src/index.js:103-119 | a prefix reference is the target script resolved in the prefix directory's manifest, located there when that manifest is not the origin; when the target is empty it is the script of that manifest's first key, located the same way; it drops the caller's flags |
| ResolverProperties.HopFirst | src/index.js:118-119 | the tree of one named script is that script, located when it comes from another manifest |
| ResolverProperties.SelfTargetNeverResolves | src/index.js:103-119 | a prefix reference with no flag span and no white space at its ends is its own hop target and resolves with no amount of fuel |
| ResolverProperties.NestedSelfTargetStepFails | src/index.js:209-214 | the nested step `npm run <name>` with such a self-targeting name never resolves |
| ResolverProperties.OriginResultsAreUnlocated | src/index.js:37-40 | mapping from the target directory gives one result per mapped name, and no result for a reference without `--prefix ` carries a location |
| ResolverProperties.ResolveFuelMonotone | src/index.js:99-170 | a resolution that did not run out of fuel gives the same result with more fuel |
| ResolverProperties.ParseFuelMonotone | src/index.js:55-69 | the same for `parseNpmScripts` |
| ResolverProperties.StepsFuelMonotone | src/index.js:203-224 | the same for `getActionsArray` |

## Left out

- Report generation (`createReport`, `createJsonReport`, `createHtmlReport`, `writeReportFile`, the HTML reporter) and the `chalk` logging in `mapNpmScripts`: file output, asset copying and a browser. `Resolver.MapNpmScripts` returns the tree that would be reported.
- `getJsonFileContent` and `getIsJsonFileAccessible`: file access and JSON parsing are replaced by the manifest map. A malformed manifest makes the source call `process.exit`, which is not modelled.
- `path.resolve`: it is the `manifestPath` function of a `Workspace`, left abstract.
- The `awaity/reduce` folds: they are sequential left folds. The first error ends the fold, as the rejected promise does in the source.
- The command-line front end (`src/cli.js`), the report-type and report-path constants, and the action metadata used by the reports.
- Lookups of inherited object keys (`scripts["constructor"]` and similar): only the manifest's own keys are keys here.
- `Object.keys` puts integer-like keys first. The key order is taken as given in `Manifest.order`.
- Script bodies and configuration values that are not strings. A manifest without a `scripts` table makes the source throw; here `scripts` is always a table.
- Characters are Dafny `char`s, not UTF-16 code units. Surrogate pairs are not modelled.
- Termination: recursion is bounded by `fuel`, and cyclic scripts end in `OutOfFuel` instead of overflowing the stack.
- Resolver.Follow: when a prefix hop targets the origin manifest and the hop yields no script, the source returns `undefined` as the action; the model reports `NothingToLocate` instead.
- Resolver.ResolveAll: its contract states the count and kind of results; the order is stated by `ResolverProperties.ResolveAllInOrder`.
- Resolver.MapNpmScripts: its contract states the missing-manifest error and the number of results; what each result is, is stated by `ResolverProperties.MapResolvesInOrigin`.

=== FILE: actions.dfy ===
/**
 * The data the resolver reads and builds: manifests, the tree of actions,
 * and the ways a resolution can fail.
 */
module Actions {
  import opened Results

  /** One flag of an action. `value` is `None` where the source leaves it `undefined`. */
  datatype Param = Param(name: string, value: Option<string>)

  /** The `pre` or `post` field of a script: a resolved hook script, or the string "N/A" (`NOT_AVAILABLE`). */
  datatype Hook = NotAvailable | Hooked(script: Action)

  /**
   * A node of the resolved tree: an opaque command, or a script with its
   * hooks, its serial steps and, on the first script of a hop into another
   * manifest, that manifest's path. The constructor is the report's `type`
   * field (`TYPE_COMMAND` or `TYPE_SCRIPT`).
   */
  datatype Action =
    | Command(name: string, params: seq<Param>)
    | Script(name: string, params: seq<Param>, pre: Hook, post: Hook,
             actions: seq<Action>, location: Option<string>)

  /**
   * The parts of a `package.json` the resolver reads. `order` stands for
   * `Object.keys(scripts)`, the names mapped when no script is requested; it
   * is not tied to the keys of `scripts`, and a name in `order` that
   * `scripts` lacks is "not found". `config` is `None` when the manifest has
   * no `config` table.
   */
  datatype Manifest = Manifest(
    order: seq<string>,
    scripts: map<string, string>,
    config: Option<map<string, string>>)

  /**
   * The manifests a resolution may visit, keyed by file path, together with
   * the map from a directory to its manifest path
   * (`path.resolve(dir, 'package.json')`).
   */
  datatype Workspace = Workspace(
    manifests: map<string, Manifest>,
    manifestPath: string -> string)

  /** Everything a resolution can throw. */
  datatype ResolveError =
    | ScriptNotFound(name: string)
      // `No script by the name "<name>" was found`
    | ManifestNotAccessible(path: string)
      // `No package.json file can be found on <path>`
    | ConfigTableMissing
      // a configuration-marked prefix in a manifest without `config` (a TypeError)
    | PrefixPathUndefined(prop: string)
      // a configuration-marked prefix naming a missing property (a TypeError in `path.resolve`)
    | NothingToLocate(path: string)
      // a hop into a manifest that yields no script at all
    | OutOfFuel
      // the nesting bound of the model was reached
}

=== FILE: patterns.dfy ===
/**
 * The lexical conventions of the resolver (the constants and regular
 * expressions of `src/constants.js`), each re-expressed as an explicit scan
 * over the characters of a string.
 */
module Patterns {
  import opened Results
  import opened Text

  const SerialCommandDelimiter: string := "&&"
  const PreScriptPrefix: string := "pre"
  const PostScriptPrefix: string := "post"
  const NpmRun: string := "npm run"
  const PrefixFlag: string := "--prefix"
  const ConfigMarker: string := "$npm_package_config_"
  const SilentFlag: string := "--silent"
  const QuietFlag: string := "--quiet"

  // ---------------------------------------------------------------------------
  // Flag spans: PARAMS_REGEX = /(?<=\s)-(?:(?!(\s-|&&)).)*/gm
  // ---------------------------------------------------------------------------

  /** A flag span starts at `i`: a `-` immediately preceded by white space. */
  predicate FlagStartAt(s: string, i: int) {
    0 < i < |s| && IsWhitespace(s[i - 1]) && s[i] == '-'
  }

  /** The string contains at least one flag span (`PARAMS_REGEX.test(s)`). */
  predicate HasFlags(s: string) {
    exists i | 0 <= i < |s| :: FlagStartAt(s, i)
  }

  /**
   * A flag span cannot take in the character at `j`: it is a line terminator
   * (not matched by `.`), or white space followed by `-`, or the start of `&&`.
   */
  predicate SpanStopsAt(s: string, j: int)
    requires 0 <= j < |s|
  {
    || IsLineTerminator(s[j])
    || (j + 1 < |s| && IsWhitespace(s[j]) && s[j + 1] == '-')
    || (j + 1 < |s| && s[j] == '&' && s[j + 1] == '&')
  }

  /** Where a flag span whose body is scanned from `j` ends: the first stop at or after `j`. */
  function SpanEnd(s: string, j: nat): (e: nat)
    requires j <= |s|
    ensures j <= e <= |s|
    ensures e == |s| || SpanStopsAt(s, e)
    ensures forall k :: j <= k < e ==> !SpanStopsAt(s, k)
    decreases |s| - j
  {
    if j == |s| || SpanStopsAt(s, j) then j else SpanEnd(s, j + 1)
  }

  /** The flag span that starts at `p`: the dash and the body after it. */
  function FlagSpanAt(s: string, p: nat): string
    requires p < |s|
  {
    s[p..SpanEnd(s, p + 1)]
  }

  /** No flag span starts strictly inside the span starting at `p`, nor right at its end. */
  lemma NoFlagStartInsideSpan(s: string, p: nat, k: int)
    requires FlagStartAt(s, p)
    requires p < k <= SpanEnd(s, p + 1)
    ensures !FlagStartAt(s, k)
  {
    var e := SpanEnd(s, p + 1);
    if k < e && k > p + 1 {
      assert !SpanStopsAt(s, k - 1);
    }
  }

  /** The regex engine's search from `lastIndex = from` for the next flag start. */
  function NextFlagStart(s: string, from: nat): (r: Option<nat>)
    requires from <= |s|
    ensures r.Some? ==> from <= r.value < |s| && FlagStartAt(s, r.value)
    ensures forall k :: from <= k < |s| && (r.None? || k < r.value) ==> !FlagStartAt(s, k)
    decreases |s| - from
  {
    if from == |s| then None
    else if FlagStartAt(s, from) then Some(from)
    else NextFlagStart(s, from + 1)
  }

  /**
   * `s.match(PARAMS_REGEX)` continued from `from`: every match, left to
   * right, each search resuming where the previous match ended.
   */
  function FlagSpansFrom(s: string, from: nat): seq<string>
    requires from <= |s|
    decreases |s| - from
  {
    match NextFlagStart(s, from)
    case None => []
    case Some(p) => [FlagSpanAt(s, p)] + FlagSpansFrom(s, SpanEnd(s, p + 1))
  }

  /** All flag spans of `s`, in source order (`s.match(PARAMS_REGEX)`, with `[]` for `null`). */
  function FlagSpans(s: string): seq<string> {
    FlagSpansFrom(s, 0)
  }

  /**
   * `s.replace(PARAMS_REGEX, '')` continued from `from`: the text between the
   * flag spans, which are dropped.
   */
  function StripFlagsFrom(s: string, from: nat): string
    requires from <= |s|
    decreases |s| - from
  {
    match NextFlagStart(s, from)
    case None => s[from..]
    case Some(p) => s[from..p] + StripFlagsFrom(s, SpanEnd(s, p + 1))
  }

  /** `s.replace(PARAMS_REGEX, '')`: `s` with every flag span removed. */
  function StripFlags(s: string): (r: string)
    ensures !HasFlags(s) ==> r == s
    ensures !HasFlags(r)
  {
    StripFlagsFromHasNoFlags(s, 0);
    StripFlagsFrom(s, 0)
  }

  /**
   * Reference description of the flag starts of `s` at or after `from`: every
   * index where a span may begin, in increasing order.
   */
  function FlagStartsFrom(s: string, from: nat): (ps: seq<nat>)
    requires from <= |s|
    ensures forall k :: 0 <= k < |ps| ==> from <= ps[k] < |s| && FlagStartAt(s, ps[k])
    ensures forall i :: from <= i < |s| && FlagStartAt(s, i) ==> i in ps
    ensures forall j, k :: 0 <= j < k < |ps| ==> ps[j] < ps[k]
    decreases |s| - from
  {
    if from == |s| then []
    else
      var rest := FlagStartsFrom(s, from + 1);
      FlagStartsPrepend(s, from, rest);
      (if FlagStartAt(s, from) then [from] else []) + rest
  }

  /** Prepending `from` when it is a flag start keeps the list exact and increasing. */
  lemma FlagStartsPrepend(s: string, from: nat, rest: seq<nat>)
    requires from < |s|
    requires forall k :: 0 <= k < |rest| ==> from + 1 <= rest[k] < |s| && FlagStartAt(s, rest[k])
    requires forall i :: from + 1 <= i < |s| && FlagStartAt(s, i) ==> i in rest
    requires forall j, k :: 0 <= j < k < |rest| ==> rest[j] < rest[k]
    ensures var ps := (if FlagStartAt(s, from) then [from] else []) + rest;
            && (forall k :: 0 <= k < |ps| ==> from <= ps[k] < |s| && FlagStartAt(s, ps[k]))
            && (forall i :: from <= i < |s| && FlagStartAt(s, i) ==> i in ps)
            && (forall j, k :: 0 <= j < k < |ps| ==> ps[j] < ps[k])
  {
    var ps := (if FlagStartAt(s, from) then [from] else []) + rest;
    if FlagStartAt(s, from) {
      forall k | 0 < k < |ps|
        ensures ps[k] == rest[k - 1]
      {
      }
      forall i | from < i < |s| && FlagStartAt(s, i)
        ensures i in ps
      {
        assert i in rest;
      }
    } else {
      assert ps == rest;
    }
  }


  function FlagStarts(s: string): seq<nat> {
    FlagStartsFrom(s, 0)
  }

  /** The spans starting at each of the given positions. */
  function SpansAt(s: string, ps: seq<nat>): (spans: seq<string>)
    requires forall k :: 0 <= k < |ps| ==> ps[k] < |s|
    ensures |spans| == |ps|
    ensures forall k :: 0 <= k < |ps| ==> spans[k] == FlagSpanAt(s, ps[k])
  {
    if |ps| == 0 then [] else [FlagSpanAt(s, ps[0])] + SpansAt(s, ps[1..])
  }

  /** Positions without a flag start do not change the list of later flag starts. */
  lemma {:induction false} FlagStartsSkip(s: string, a: nat, b: nat)
    requires a <= b <= |s|
    requires forall k :: a <= k < b ==> !FlagStartAt(s, k)
    ensures FlagStartsFrom(s, a) == FlagStartsFrom(s, b)
    decreases b - a
  {
    if a < b {
      FlagStartsFromNoStart(s, a);
      FlagStartsSkip(s, a + 1, b);
    }
  }

  /** A position without a flag start adds nothing to the list. */
  lemma FlagStartsFromNoStart(s: string, a: nat)
    requires a < |s| && !FlagStartAt(s, a)
    ensures FlagStartsFrom(s, a) == FlagStartsFrom(s, a + 1)
  {
    assert [] + FlagStartsFrom(s, a + 1) == FlagStartsFrom(s, a + 1);
  }

  /**
   * The global match finds exactly one span per flag start, in order: the
   * resumption at the end of each match never skips or splits a span.
   */
  lemma {:induction false} FlagSpansFromAreFlagStarts(s: string, from: nat)
    requires from <= |s|
    ensures FlagSpansFrom(s, from) == SpansAt(s, FlagStartsFrom(s, from))
    decreases |s| - from
  {
    match NextFlagStart(s, from)
    case None =>
      FlagStartsSkip(s, from, |s|);
    case Some(p) =>
      FlagSpansFromAreFlagStarts(s, SpanEnd(s, p + 1));
      FlagSpansStep(s, from, p);
  }

  /** The inductive step: the first match is the span at the first flag start. */
  lemma FlagSpansStep(s: string, from: nat, p: nat)
    requires from <= |s| && NextFlagStart(s, from) == Some(p)
    requires FlagSpansFrom(s, SpanEnd(s, p + 1)) == SpansAt(s, FlagStartsFrom(s, SpanEnd(s, p + 1)))
    ensures FlagSpansFrom(s, from) == SpansAt(s, FlagStartsFrom(s, from))
  {
    var e := SpanEnd(s, p + 1);
    var later := FlagStartsFrom(s, e);
    assert FlagSpansFrom(s, from) == [FlagSpanAt(s, p)] + FlagSpansFrom(s, e);
    FlagStartsAroundSpan(s, from, p);
    SpansAtCons(s, p, later);
  }

  /**
   * From `from`, the flag starts are the first one, `p`, followed by those
   * after the end of its span: none lies in between.
   */
  lemma FlagStartsAroundSpan(s: string, from: nat, p: nat)
    requires from <= p < |s| && FlagStartAt(s, p)
    requires forall k :: from <= k < p ==> !FlagStartAt(s, k)
    ensures FlagStartsFrom(s, from) == [p] + FlagStartsFrom(s, SpanEnd(s, p + 1))
  {
    var e := SpanEnd(s, p + 1);
    FlagStartsSkip(s, from, p);
    forall k | p + 1 <= k < e
      ensures !FlagStartAt(s, k)
    {
      NoFlagStartInsideSpan(s, p, k);
    }
    FlagStartsSkip(s, p + 1, e);
    assert FlagStartsFrom(s, p) == [p] + FlagStartsFrom(s, p + 1);
  }

  lemma SpansAtCons(s: string, p: nat, ps: seq<nat>)
    requires p < |s|
    requires forall k :: 0 <= k < |ps| ==> ps[k] < |s|
    ensures SpansAt(s, [p] + ps) == [FlagSpanAt(s, p)] + SpansAt(s, ps)
  {
    assert ([p] + ps)[1..] == ps;
  }

  /** One flag span per flag start of `s`, left to right. */
  lemma FlagSpansAreFlagStarts(s: string)
    ensures FlagSpans(s) == SpansAt(s, FlagStarts(s))
    ensures |FlagSpans(s)| == |FlagStarts(s)|
    ensures HasFlags(s) <==> |FlagStarts(s)| > 0
  {
    FlagSpansFromAreFlagStarts(s, 0);
    HasFlagsIffFlagStarts(s);
  }

  /** A string has a flag span exactly when it has a flag start. */
  lemma HasFlagsIffFlagStarts(s: string)
    ensures HasFlags(s) <==> |FlagStarts(s)| > 0
  {
    if |FlagStarts(s)| > 0 {
      assert FlagStartAt(s, FlagStarts(s)[0]);
    }
    if HasFlags(s) {
      var i :| 0 <= i < |s| && FlagStartAt(s, i);
      assert i in FlagStarts(s);
    }
  }

  /**
   * What remains after stripping from `from` has no flag start, and, when
   * `from` is not itself a flag start, begins with the character at `from`.
   */
  lemma {:induction false} StripFlagsFromHasNoFlags(s: string, from: nat)
    requires from <= |s|
    ensures !HasFlags(StripFlagsFrom(s, from))
    ensures from < |s| && !FlagStartAt(s, from) ==>
              |StripFlagsFrom(s, from)| > 0 && StripFlagsFrom(s, from)[0] == s[from]
    ensures !HasFlags(s) && from == 0 ==> StripFlagsFrom(s, from) == s
    decreases |s| - from
  {
    var r := StripFlagsFrom(s, from);
    match NextFlagStart(s, from)
    case None =>
      assert r == s[from..];
      NoFlagsInGap(s, from, |s|);
      assert r == s[from..|s|] + [];
      NoFlagsAcrossJoin(s[from..|s|], []);
    case Some(p) =>
      var e := SpanEnd(s, p + 1);
      var gap := s[from..p];
      var rest := StripFlagsFrom(s, e);
      StripFlagsFromHasNoFlags(s, e);
      assert r == gap + rest;
      NoFlagStartInsideSpan(s, p, e);
      if e < |s| {
        assert s[e] != '-';
      }
      NoFlagsInGap(s, from, p);
      NoFlagsAcrossJoin(gap, rest);
      if from < |s| && !FlagStartAt(s, from) {
        assert p > from;
        assert r[0] == s[from];
      }
  }

  /** A stretch of `s` with no flag start inside it has none of its own after its first character. */
  lemma NoFlagsInGap(s: string, from: nat, to: nat)
    requires from <= to <= |s|
    requires forall k :: from <= k < to ==> !FlagStartAt(s, k)
    ensures forall i :: 0 < i < to - from ==> !FlagStartAt(s[from..to], i)
  {
    forall i | 0 < i < to - from
      ensures !FlagStartAt(s[from..to], i)
    {
      assert !FlagStartAt(s, from + i);
      assert s[from..to][i - 1] == s[from + i - 1] && s[from..to][i] == s[from + i];
    }
  }

  /**
   * Joining a piece with no flag start after its first character to a piece
   * with no flag start that does not begin with a dash creates none.
   */
  lemma NoFlagsAcrossJoin(gap: string, rest: string)
    requires forall i :: 0 < i < |gap| ==> !FlagStartAt(gap, i)
    requires !HasFlags(rest)
    requires |rest| == 0 || rest[0] != '-'
    ensures !HasFlags(gap + rest)
  {
    var r := gap + rest;
    forall i | 0 <= i < |r|
      ensures !FlagStartAt(r, i)
    {
      if 0 < i < |gap| {
        assert !FlagStartAt(gap, i);
        assert r[i - 1] == gap[i - 1] && r[i] == gap[i];
      } else if i == |gap| && i > 0 {
        assert r[i] == rest[0];
      } else if i > |gap| {
        assert r[i - 1] == rest[i - 1 - |gap|] && r[i] == rest[i - |gap|];
        assert !FlagStartAt(rest, i - |gap|);
      }
    }
  }

  /** `ps` lists flag starts of `s` at or after `from`, in increasing order. */
  predicate OrderedStarts(s: string, from: nat, ps: seq<nat>) {
    && from <= |s|
    && (forall k :: 0 <= k < |ps| ==> from <= ps[k] < |s| && FlagStartAt(s, ps[k]))
    && (forall j, k :: 0 <= j < k < |ps| ==> ps[j] < ps[k])
  }

  /** The later starts of an ordered list all lie at or after the end of the first one's span. */
  lemma OrderedStartsTail(s: string, from: nat, ps: seq<nat>)
    requires OrderedStarts(s, from, ps) && |ps| > 0
    ensures OrderedStarts(s, SpanEnd(s, ps[0] + 1), ps[1..])
  {
    var e := SpanEnd(s, ps[0] + 1);
    forall k | 0 <= k < |ps| - 1
      ensures e <= ps[1..][k]
    {
      assert ps[1..][k] == ps[k + 1] && ps[0] < ps[k + 1];
      if ps[k + 1] <= e {
        NoFlagStartInsideSpan(s, ps[0], ps[k + 1]);
      }
    }
    forall j, k | 0 <= j < k < |ps| - 1
      ensures ps[1..][j] < ps[1..][k]
    {
      assert ps[1..][j] == ps[j + 1] && ps[1..][k] == ps[k + 1];
    }
  }

  /**
   * The text between the flag spans that start at `ps`: the piece before the
   * first span, the pieces between consecutive spans, and the rest after the
   * last one.
   */
  function Gaps(s: string, from: nat, ps: seq<nat>): (gs: seq<string>)
    requires OrderedStarts(s, from, ps)
    ensures |gs| == |ps| + 1
    decreases |ps|
  {
    if |ps| == 0 then [s[from..]]
    else
      OrderedStartsTail(s, from, ps);
      [s[from..ps[0]]] + Gaps(s, SpanEnd(s, ps[0] + 1), ps[1..])
  }

  /** The gaps with a span between each two consecutive ones. */
  function Interleave(gs: seq<string>, spans: seq<string>): string
    requires |gs| == |spans| + 1
    decreases |spans|
  {
    if |spans| == 0 then gs[0] else gs[0] + spans[0] + Interleave(gs[1..], spans[1..])
  }

  /**
   * `s.replace(PARAMS_REGEX, '')` keeps exactly the gaps between the flag
   * spans, joined: putting every span back between its gaps rebuilds `s`.
   */
  lemma StripFlagsKeepsGaps(s: string)
    ensures OrderedStarts(s, 0, FlagStarts(s))
    ensures StripFlags(s) == Join(Gaps(s, 0, FlagStarts(s)), "")
    ensures |FlagSpans(s)| == |FlagStarts(s)|
    ensures Interleave(Gaps(s, 0, FlagStarts(s)), FlagSpans(s)) == s
  {
    StripFlagsFromKeepsGaps(s, 0);
    GapsRebuild(s, 0, FlagStarts(s));
    FlagSpansAreFlagStarts(s);
    assert s[0..] == s;
  }

  lemma {:induction false} StripFlagsFromKeepsGaps(s: string, from: nat)
    requires from <= |s|
    ensures OrderedStarts(s, from, FlagStartsFrom(s, from))
    ensures StripFlagsFrom(s, from) == Join(Gaps(s, from, FlagStartsFrom(s, from)), "")
    decreases |s| - from
  {
    match NextFlagStart(s, from)
    case None =>
      NoStartNoGap(s, from);
    case Some(p) =>
      var e := SpanEnd(s, p + 1);
      StripFlagsFromKeepsGaps(s, e);
      StartGap(s, from, p, StripFlagsFrom(s, e));
  }

  /** With no flag start left, the one gap is the rest of the text, which stripping keeps. */
  lemma NoStartNoGap(s: string, from: nat)
    requires from <= |s| && NextFlagStart(s, from).None?
    ensures FlagStartsFrom(s, from) == []
    ensures StripFlagsFrom(s, from) == Join(Gaps(s, from, []), "")
  {
    FlagStartsSkip(s, from, |s|);
  }

  /** The first flag start contributes the gap before it; the rest is stripped from the end of its span. */
  lemma StartGap(s: string, from: nat, p: nat, rest: string)
    requires from <= |s| && NextFlagStart(s, from) == Some(p)
    requires rest == StripFlagsFrom(s, SpanEnd(s, p + 1))
    requires rest == Join(Gaps(s, SpanEnd(s, p + 1), FlagStartsFrom(s, SpanEnd(s, p + 1))), "")
    ensures StripFlagsFrom(s, from) == Join(Gaps(s, from, FlagStartsFrom(s, from)), "")
  {
    FlagStartsAroundSpan(s, from, p);
    JoinGapsFrom(s, from, p);
    StripFlagsFromStep(s, from, p);
  }

  /** When `p` is the first flag start, the joined gaps are the text before it and the joined gaps after its span. */
  lemma JoinGapsFrom(s: string, from: nat, p: nat)
    requires from <= p < |s|
    requires FlagStartsFrom(s, from) == [p] + FlagStartsFrom(s, SpanEnd(s, p + 1))
    ensures Join(Gaps(s, from, FlagStartsFrom(s, from)), "")
            == s[from..p] + Join(Gaps(s, SpanEnd(s, p + 1), FlagStartsFrom(s, SpanEnd(s, p + 1))), "")
  {
    var ps := FlagStartsFrom(s, from);
    StartsOrdered(s, from);
    JoinGapsCons(s, from, ps);
    assert ps[1..] == FlagStartsFrom(s, SpanEnd(s, p + 1));
  }

  /** Stripping from `from` keeps the text up to the next flag start and strips on from the end of its span. */
  lemma StripFlagsFromStep(s: string, from: nat, p: nat)
    requires from <= |s| && NextFlagStart(s, from) == Some(p)
    ensures StripFlagsFrom(s, from) == s[from..p] + StripFlagsFrom(s, SpanEnd(s, p + 1))
  {
  }

  /** The joined gaps are the first gap followed by the joined later gaps. */
  lemma JoinGapsCons(s: string, from: nat, ps: seq<nat>)
    requires OrderedStarts(s, from, ps) && |ps| > 0
    ensures OrderedStarts(s, SpanEnd(s, ps[0] + 1), ps[1..])
    ensures Join(Gaps(s, from, ps), "") == s[from..ps[0]] + Join(Gaps(s, SpanEnd(s, ps[0] + 1), ps[1..]), "")
  {
    var g := s[from..ps[0]];
    GapsCons(s, from, ps);
    JoinCons(g, Gaps(s, SpanEnd(s, ps[0] + 1), ps[1..]), "");
    assert g + "" == g;
  }

  /** The reference flag starts are ordered flag starts. */
  lemma StartsOrdered(s: string, from: nat)
    requires from <= |s|
    ensures OrderedStarts(s, from, FlagStartsFrom(s, from))
  {
  }

  /** Unfolds `Gaps` once. */
  lemma GapsCons(s: string, from: nat, ps: seq<nat>)
    requires OrderedStarts(s, from, ps) && |ps| > 0
    ensures OrderedStarts(s, SpanEnd(s, ps[0] + 1), ps[1..])
    ensures Gaps(s, from, ps) == [s[from..ps[0]]] + Gaps(s, SpanEnd(s, ps[0] + 1), ps[1..])
  {
    OrderedStartsTail(s, from, ps);
  }

  /** Unfolds `SpansAt` once. */
  lemma SpansAtTail(s: string, ps: seq<nat>)
    requires |ps| > 0 && forall k :: 0 <= k < |ps| ==> ps[k] < |s|
    ensures SpansAt(s, ps)[0] == FlagSpanAt(s, ps[0])
    ensures SpansAt(s, ps)[1..] == SpansAt(s, ps[1..])
  {
  }

  /** Unfolds `Interleave` once. */
  lemma InterleaveCons(g: string, gs: seq<string>, spans: seq<string>)
    requires |spans| > 0 && |gs| == |spans|
    ensures Interleave([g] + gs, spans) == g + spans[0] + Interleave(gs, spans[1..])
  {
    assert ([g] + gs)[1..] == gs;
  }

  /** Putting the spans back between the gaps gives the text from `from` on. */
  lemma {:induction false} GapsRebuild(s: string, from: nat, ps: seq<nat>)
    requires OrderedStarts(s, from, ps)
    ensures Interleave(Gaps(s, from, ps), SpansAt(s, ps)) == s[from..]
    decreases |ps|
  {
    if |ps| > 0 {
      var e := SpanEnd(s, ps[0] + 1);
      GapsCons(s, from, ps);
      GapsRebuild(s, e, ps[1..]);
      SpansAtTail(s, ps);
      InterleaveCons(s[from..ps[0]], Gaps(s, e, ps[1..]), SpansAt(s, ps));
      SliceAt(s, from, ps[0], e);
    }
  }

  // ---------------------------------------------------------------------------
  // Command name: COMMAND_NAME_REGEX = /.*?(?=\s-)/ (first match only)
  // ---------------------------------------------------------------------------

  /** The lookahead `(?=\s-)` holds at `k`: white space at `k`, a dash after it. */
  predicate NameStopAt(s: string, k: int) {
    0 <= k && k + 1 < |s| && IsWhitespace(s[k]) && s[k + 1] == '-'
  }

  /**
   * The lazy `.*?` from a fixed start: extend one character at a time (never
   * over a line terminator) until the lookahead holds. It fails exactly when
   * every stop at or after the start lies on a later line.
   */
  function LazyNameEnd(s: string, k: nat): (r: Option<nat>)
    requires k <= |s|
    ensures r.Some? ==> k <= r.value && NameStopAt(s, r.value)
    ensures r.Some? ==> forall j :: k <= j < r.value ==> !NameStopAt(s, j) && !IsLineTerminator(s[j])
    ensures r.None? ==> forall j :: k <= j < |s| && NameStopAt(s, j) ==> k < LineStart(s, j)
    decreases |s| - k
  {
    if k == |s| then None
    else if NameStopAt(s, k) then Some(k)
    else if IsLineTerminator(s[k]) then None
    else LazyNameEnd(s, k + 1)
  }

  /** The regex engine trying start positions `a`, `a + 1`, ... for the first match. */
  function CommandNameFrom(s: string, a: nat): Option<string>
    requires a <= |s|
    decreases |s| - a
  {
    match LazyNameEnd(s, a)
    case Some(k) => Some(s[a..k])
    case None => if a == |s| then None else CommandNameFrom(s, a + 1)
  }

  /** `COMMAND_NAME_REGEX.exec(s)[0]`, with `None` where `exec` returns `null`. */
  function CommandName(s: string): Option<string> {
    CommandNameFrom(s, 0)
  }

  /** The start of the line that holds index `k`: just after the last line terminator before it. */
  function LineStart(s: string, k: nat): (a: nat)
    requires k <= |s|
    ensures a <= k
    ensures forall j :: a <= j < k ==> !IsLineTerminator(s[j])
    ensures a == 0 || IsLineTerminator(s[a - 1])
  {
    if k == 0 || IsLineTerminator(s[k - 1]) then k else LineStart(s, k - 1)
  }

  /** The lazy scan from `a` fails when it meets a line terminator before any stop. */
  lemma {:induction false} LazyNameEndBlocked(s: string, a: nat, t: nat)
    requires a <= t < |s| && IsLineTerminator(s[t])
    requires forall j :: a <= j <= t ==> !NameStopAt(s, j)
    ensures LazyNameEnd(s, a).None?
    decreases t - a
  {
    if a < t {
      LazyNameEndBlocked(s, a + 1, t);
    }
  }

  /** The lazy scan from `a` reaches the first stop `k` when no line terminator lies between. */
  lemma {:induction false} LazyNameEndReaches(s: string, a: nat, k: nat)
    requires a <= k && NameStopAt(s, k)
    requires forall j :: a <= j < k ==> !NameStopAt(s, j) && !IsLineTerminator(s[j])
    ensures LazyNameEnd(s, a) == Some(k)
    decreases k - a
  {
    if a < k {
      LazyNameEndReaches(s, a + 1, k);
    }
  }

  /**
   * The command name is the text from the start of the line holding the
   * first flag up to, but excluding, the white space before that flag's dash.
   * It is not trimmed.
   */
  lemma CommandNameBeforeFirstFlag(s: string)
    requires HasFlags(s)
    ensures |FlagStarts(s)| > 0
    ensures var p := FlagStarts(s)[0];
            CommandName(s) == Some(s[LineStart(s, p - 1)..p - 1])
  {
    HasFlagsIffFlagStarts(s);
    var ps := FlagStarts(s);
    var p := ps[0];
    var k := p - 1;
    forall j | 0 <= j < k
      ensures !NameStopAt(s, j)
    {
      if NameStopAt(s, j) {
        FirstFlagStartIsLeast(s, j + 1);
      }
    }
    var a := LineStart(s, k);
    LazyNameEndReaches(s, a, k);
    CommandNameFromLineStart(s, 0, a, k);
  }

  /** The first listed flag start is the least one. */
  lemma FirstFlagStartIsLeast(s: string, i: int)
    requires FlagStartAt(s, i)
    ensures |FlagStarts(s)| > 0 && FlagStarts(s)[0] <= i
  {
    var ps := FlagStarts(s);
    assert i in ps;
    var m :| 0 <= m < |ps| && ps[m] == i;
    if m > 0 {
      assert ps[0] < ps[m];
    }
  }

  lemma {:induction false} CommandNameFromLineStart(s: string, b: nat, a: nat, k: nat)
    requires k < |s| && b <= a == LineStart(s, k) && NameStopAt(s, k)
    requires forall j :: 0 <= j < k ==> !NameStopAt(s, j)
    requires LazyNameEnd(s, a) == Some(k)
    ensures CommandNameFrom(s, b) == Some(s[a..k])
    decreases a - b
  {
    if b < a {
      LazyNameEndBlocked(s, b, a - 1);
      CommandNameFromLineStart(s, b + 1, a, k);
    }
  }

  /**
   * On a single line the command name is the shortest prefix of `s` that is
   * followed by white space and a dash.
   */
  lemma CommandNameIsShortestPrefix(s: string)
    requires HasFlags(s)
    requires forall j :: 0 <= j < |s| ==> !IsLineTerminator(s[j])
    ensures CommandName(s).Some?
    ensures var n := CommandName(s).value;
            && |n| < |s| && s[..|n|] == n
            && NameStopAt(s, |n|)
            && forall j :: 0 <= j < |n| ==> !NameStopAt(s, j)
  {
    CommandNameBeforeFirstFlag(s);
    var p := FlagStarts(s)[0];
    var n := CommandName(s).value;
    assert LineStart(s, p - 1) == 0;
    assert n == s[..p - 1];
    forall j | 0 <= j < |n|
      ensures !NameStopAt(s, j)
    {
      if NameStopAt(s, j) {
        FirstFlagStartIsLeast(s, j + 1);
      }
    }
  }

  /** Whenever a flag span exists, `COMMAND_NAME_REGEX.exec` finds a match. */
  lemma CommandNameExists(s: string)
    requires HasFlags(s)
    ensures CommandName(s).Some?
  {
    CommandNameBeforeFirstFlag(s);
  }

  // ---------------------------------------------------------------------------
  // Nested scripts: NESTED_SCRIPT_REGEX = /^npm run\s/ and NPM_PARAMS = /(--silent|--quiet)/
  // ---------------------------------------------------------------------------

  /** The step invokes another script: it begins with `npm run` and one white-space character. */
  predicate IsNestedScript(step: string) {
    |step| > |NpmRun| && step[..|NpmRun|] == NpmRun && IsWhitespace(step[|NpmRun|])
  }

  /** A quiet flag (`--silent` or `--quiet`) begins at `i`. */
  predicate QuietFlagAt(s: string, i: int) {
    OccursAt(s, SilentFlag, i) || OccursAt(s, QuietFlag, i)
  }

  /**
   * The alternation `(--silent|--quiet)` searched left to right: the
   * leftmost index at or after `from` where either flag begins.
   */
  function FirstQuietFlag(s: string, from: nat): (r: Option<nat>)
    requires from <= |s|
    ensures r.Some? ==> from <= r.value && QuietFlagAt(s, r.value)
    ensures forall i :: from <= i <= |s| && (r.None? || i < r.value) ==> !QuietFlagAt(s, i)
    decreases |s| - from
  {
    if QuietFlagAt(s, from) then Some(from)
    else if from == |s| then None
    else FirstQuietFlag(s, from + 1)
  }

  /**
   * `s.replace(NPM_PARAMS, '')`: removes the leftmost quiet flag only (the
   * pattern is not global). Putting the removed flag back restores `s`.
   */
  function RemoveQuietFlag(s: string): (r: string)
    ensures FirstQuietFlag(s, 0).None? <==> r == s
    ensures FirstQuietFlag(s, 0).Some? ==>
              var t := FirstQuietFlag(s, 0).value;
              var q := if OccursAt(s, SilentFlag, t) then SilentFlag else QuietFlag;
              && OccursAt(s, q, t) && |r| == |s| - |q|
              && t <= |r| && s == r[..t] + q + r[t..]
  {
    match FirstQuietFlag(s, 0)
    case None => s
    case Some(t) =>
      var q := if OccursAt(s, SilentFlag, t) then SilentFlag else QuietFlag;
      CutAt(s, t, |q|);
      s[..t] + s[t + |q|..]
  }

  /**
   * The name a nested step refers to: the step without its `npm run ` head
   * and its first quiet flag, trimmed.
   */
  function NestedScriptName(step: string): (name: string)
    requires IsNestedScript(step)
    ensures |name| <= |step| - |NpmRun| - 1
  {
    TrimSpec(RemoveQuietFlag(step[|NpmRun| + 1..]));
    Trim(RemoveQuietFlag(step[|NpmRun| + 1..]))
  }

  /**
   * The nested name is what remains of the step after its head and its
   * first quiet flag, less the white space at both ends.
   */
  lemma NestedScriptNameSpec(step: string)
    requires IsNestedScript(step)
    ensures var rest := RemoveQuietFlag(step[|NpmRun| + 1..]);
            var name := NestedScriptName(step);
            var i := |rest| - |TrimStart(rest)|;
            && i + |name| <= |rest| && name == rest[i..i + |name|]
            && (forall j :: 0 <= j < i ==> IsWhitespace(rest[j]))
            && (forall j :: i + |name| <= j < |rest| ==> IsWhitespace(rest[j]))
            && (|name| > 0 ==> !IsWhitespace(name[0]) && !IsWhitespace(name[|name| - 1]))
  {
    TrimSpec(RemoveQuietFlag(step[|NpmRun| + 1..]));
  }

  /** `npm run ` followed by a trimmed name without a quiet flag refers back to that name. */
  lemma NestedScriptNameOfStep(name: string)
    requires |name| > 0 ==> !IsWhitespace(name[0]) && !IsWhitespace(name[|name| - 1])
    requires FirstQuietFlag(name, 0).None?
    ensures IsNestedScript(NpmRun + " " + name)
    ensures NestedScriptName(NpmRun + " " + name) == name
  {
    var step := NpmRun + " " + name;
    assert step[..|NpmRun|] == NpmRun && step[|NpmRun|] == ' ';
    assert step[|NpmRun| + 1..] == name;
    TrimKeepsTrimmed(name);
  }

  // ---------------------------------------------------------------------------
  // Prefix redirection: PREFIX_REGEX = /--prefix / and PREFIX_VALUE_REGEX = /--prefix\s+("[^"]*"|\S*)/
  // ---------------------------------------------------------------------------

  /** `PREFIX_REGEX.test(s)`: `--prefix` followed by a space character. */
  predicate HasPrefixFlag(s: string) {
    Contains(s, PrefixFlag + " ")
  }

  /** `--prefix` followed by white space begins at `p`. */
  predicate PrefixFlagAt(s: string, p: int) {
    0 <= p && p + |PrefixFlag| < |s| && s[p..p + |PrefixFlag|] == PrefixFlag
    && IsWhitespace(s[p + |PrefixFlag|])
  }

  /** No `--prefix` followed by white space begins before position `q`. */
  predicate NoPrefixFlagBefore(s: string, q: nat) {
    forall p :: 0 <= p < q ==> !PrefixFlagAt(s, p)
  }

  /** The leftmost `--prefix\s` at or after `from`. */
  function FirstPrefixFlag(s: string, from: nat): (r: Option<nat>)
    requires from <= |s|
    ensures r.Some? ==> from <= r.value && PrefixFlagAt(s, r.value)
    ensures forall p :: from <= p <= |s| && (r.None? || p < r.value) ==> !PrefixFlagAt(s, p)
    decreases |s| - from
  {
    if PrefixFlagAt(s, from) then Some(from)
    else if from == |s| then None
    else FirstPrefixFlag(s, from + 1)
  }

  /** The greedy `\s+` / `\s*`: the first index at or after `j` that is not white space. */
  function SkipWhitespace(s: string, j: nat): (e: nat)
    requires j <= |s|
    ensures j <= e <= |s|
    ensures forall k :: j <= k < e ==> IsWhitespace(s[k])
    ensures e == |s| || !IsWhitespace(s[e])
    decreases |s| - j
  {
    if j < |s| && IsWhitespace(s[j]) then SkipWhitespace(s, j + 1) else j
  }

  /** The greedy `\S*`: the first index at or after `j` that is white space. */
  function SkipNonWhitespace(s: string, j: nat): (e: nat)
    requires j <= |s|
    ensures j <= e <= |s|
    ensures forall k :: j <= k < e ==> !IsWhitespace(s[k])
    ensures e == |s| || IsWhitespace(s[e])
    decreases |s| - j
  {
    if j < |s| && !IsWhitespace(s[j]) then SkipNonWhitespace(s, j + 1) else j
  }

  lemma PrefixFlagDetected(s: string)
    requires HasPrefixFlag(s)
    ensures FirstPrefixFlag(s, 0).Some?
  {
    var i := IndexOf(s, PrefixFlag + " ").value;
    assert s[i..i + |PrefixFlag|] == (PrefixFlag + " ")[..|PrefixFlag|];
    assert s[i + |PrefixFlag|] == (PrefixFlag + " ")[|PrefixFlag|];
    assert PrefixFlagAt(s, i);
  }

  /**
   * Where the captured prefix value begins: after the leftmost `--prefix`
   * and the whole run of white space that follows it. Its contract is
   * `PrefixValueStartSpec`.
   */
  function PrefixValueStart(s: string): (j: nat)
    requires HasPrefixFlag(s)
    ensures j <= |s|
  {
    PrefixFlagDetected(s);
    var p := FirstPrefixFlag(s, 0).value;
    SkipWhitespace(s, p + |PrefixFlag|)
  }

  /**
   * The value starts after the leftmost `--prefix` and the white space that
   * follows it, and at a character that is not white space.
   */
  lemma PrefixValueStartSpec(s: string)
    requires HasPrefixFlag(s)
    ensures var j := PrefixValueStart(s);
            && (exists p :: && PrefixFlagAt(s, p) && p + |PrefixFlag| < j
                            && (forall q :: 0 <= q < p ==> !PrefixFlagAt(s, q))
                            && (forall k :: p + |PrefixFlag| <= k < j ==> IsWhitespace(s[k])))
            && (j == |s| || !IsWhitespace(s[j]))
  {
    PrefixFlagDetected(s);
    var p := FirstPrefixFlag(s, 0).value;
    assert PrefixFlagAt(s, p);
  }

  /** A double-quoted run: quotes at both ends and no quote in between. */
  predicate IsQuotedRun(v: string) {
    |v| >= 2 && v[0] == '"' && v[|v| - 1] == '"' && forall k :: 0 < k < |v| - 1 ==> v[k] != '"'
  }

  /**
   * `PREFIX_VALUE_REGEX.exec(s)[1]`: a double-quoted run with its quotes
   * when a closing quote follows, otherwise the run of non-white-space. Its
   * contract is `PrefixValueSpec`.
   */
  function PrefixValue(s: string): (v: string)
    requires HasPrefixFlag(s)
    ensures |v| <= |s|
  {
    ValueAt(s, PrefixValueStart(s))
  }

  /** The capture group `("[^"]*"|\S*)` tried at index `j`. */
  function ValueAt(s: string, j: nat): (v: string)
    requires j <= |s|
    ensures j + |v| <= |s|
  {
    if j < |s| && s[j] == '"' && Contains(s[j + 1..], "\"") then
      var m := IndexOf(s[j + 1..], "\"").value;
      QuotedRunAt(s, j, m);
      s[j..j + m + 2]
    else
      s[j..SkipNonWhitespace(s, j)]
  }

  /**
   * `v` is what the group `("[^"]*"|\S*)` captures at index `j` of `s`: it is
   * the text at `j`, either a quoted run or free of white space, an unquoted
   * value stops only at white space or the end, and an opening quote with a
   * closing one after it always gives a quoted run.
   */
  predicate CapturedAt(s: string, j: nat, v: string) {
    && j + |v| <= |s| && s[j..j + |v|] == v
    && (IsQuotedRun(v) || (forall k :: 0 <= k < |v| ==> !IsWhitespace(v[k])))
    && (!IsQuotedRun(v) ==> j + |v| == |s| || IsWhitespace(s[j + |v|]))
    && (j < |s| && s[j] == '"' && Contains(s[j + 1..], "\"") ==> IsQuotedRun(v))
  }

  /**
   * The captured value is the text at the value start: a quoted run when a
   * closing quote follows an opening one, otherwise a run of non-white-space
   * that reaches the next white space or the end.
   */
  lemma PrefixValueSpec(s: string)
    requires HasPrefixFlag(s)
    ensures CapturedAt(s, PrefixValueStart(s), PrefixValue(s))
  {
    ValueAtSpec(s, PrefixValueStart(s));
  }

  lemma ValueAtSpec(s: string, j: nat)
    requires j <= |s|
    ensures CapturedAt(s, j, ValueAt(s, j))
  {
    if j < |s| && s[j] == '"' && Contains(s[j + 1..], "\"") {
      var m := IndexOf(s[j + 1..], "\"").value;
      QuotedRunAt(s, j, m);
      assert ValueAt(s, j) == s[j..j + m + 2];
    } else {
      UnquotedRunAt(s, j);
      assert ValueAt(s, j) == s[j..SkipNonWhitespace(s, j)];
    }
  }

  lemma UnquotedRunAt(s: string, j: nat)
    requires j <= |s|
    ensures var e := SkipNonWhitespace(s, j);
            && (forall k :: 0 <= k < e - j ==> !IsWhitespace(s[j..e][k]))
            && (e == |s| || IsWhitespace(s[e]))
  {
    var e := SkipNonWhitespace(s, j);
    forall k | 0 <= k < e - j
      ensures !IsWhitespace(s[j..e][k])
    {
      assert s[j..e][k] == s[j + k];
    }
  }

  lemma QuotedRunAt(s: string, j: nat, m: nat)
    requires j < |s| && s[j] == '"'
    requires Contains(s[j + 1..], "\"") && m == IndexOf(s[j + 1..], "\"").value
    ensures j + m + 2 <= |s| && IsQuotedRun(s[j..j + m + 2])
  {
    var t := s[j + 1..];
    assert OccursAt(t, "\"", m);
    OccursAtChar(t, '"', m);
    var v := s[j..j + m + 2];
    forall k | 0 < k < |v| - 1
      ensures v[k] != '"'
    {
      assert v[k] == t[k - 1];
      OccursAtChar(t, '"', k - 1);
    }
  }

  // ---------------------------------------------------------------------------
  // Configuration references: CONFIG_PROP_REGEX = /\$npm_package_config_/
  // ---------------------------------------------------------------------------

  /** `CONFIG_PROP_REGEX.test(v)`: the marker occurs anywhere in `v`. */
  predicate HasConfigMarker(v: string) {
    Contains(v, ConfigMarker)
  }

  /**
   * `v.replace(CONFIG_PROP_REGEX, '')`: the configuration property named by
   * `v`, which is `v` with the first marker removed. Its contract is
   * `ConfigPropSpec`.
   */
  function ConfigProp(v: string): (prop: string)
    requires HasConfigMarker(v)
    ensures |prop| == |v| - |ConfigMarker|
  {
    RemoveFirst(v, ConfigMarker)
  }

  /** The property name is the value with its first marker cut out: putting the marker back restores the value. */
  lemma ConfigPropSpec(v: string)
    requires HasConfigMarker(v)
    ensures var i := IndexOf(v, ConfigMarker).value;
            var prop := ConfigProp(v);
            i <= |prop| && v == prop[..i] + ConfigMarker + prop[i..]
  {
  }

  /** A value that is exactly the marker followed by `prop` references the property `prop`. */
  lemma ConfigPropOfReference(prop: string)
    ensures HasConfigMarker(ConfigMarker + prop)
    ensures ConfigProp(ConfigMarker + prop) == prop
  {
    var v := ConfigMarker + prop;
    assert v[..|ConfigMarker|] == ConfigMarker;
    assert OccursAt(v, ConfigMarker, 0);
    ContainsIffOccurs(v, ConfigMarker, 0);
    assert v[|ConfigMarker|..] == prop;
  }

  /**
   * `--prefix ` followed by a value that has no white space and does not
   * open a quote captures exactly that value, when the text before the flag
   * holds no `--prefix` followed by white space.
   */
  lemma PrefixValueOf(before: string, d: string)
    requires NoPrefixFlagBefore(before, |before|)
    requires forall k :: 0 <= k < |d| ==> !IsWhitespace(d[k])
    requires |d| == 0 || d[0] != '"'
    ensures HasPrefixFlag(before + PrefixFlag + " " + d)
    ensures PrefixValue(before + PrefixFlag + " " + d) == d
  {
    var s := before + PrefixFlag + " " + d;
    var q := |before|;
    var j := q + |PrefixFlag| + 1;
    PrefixFlagPlaced(before, d);
    NoFlagAcrossFlag(before, d);
    assert s == before + (PrefixFlag + " " + d);
    FirstPrefixFlagIs(s, q);
    assert s[j..] == d;
    SkipOneSpace(s, q + |PrefixFlag|);
    UnquotedTail(s, j);
  }

  /** `--prefix ` written after a dash-free text is a prefix flag at the end of that text. */
  lemma PrefixFlagPlaced(before: string, d: string)
    ensures var s := before + PrefixFlag + " " + d;
            && HasPrefixFlag(s) && PrefixFlagAt(s, |before|)
            && s[|before| + |PrefixFlag|] == ' '
            && s[|before| + |PrefixFlag| + 1..] == d
  {
    var s := before + PrefixFlag + " " + d;
    var q := |before|;
    assert s[q..q + |PrefixFlag|] == PrefixFlag;
    assert s[q..q + |PrefixFlag| + 1] == PrefixFlag + " ";
    assert OccursAt(s, PrefixFlag + " ", q);
    ContainsIffOccurs(s, PrefixFlag + " ", q);
  }

  /** The leftmost prefix flag is the one with none before it. */
  lemma FirstPrefixFlagIs(s: string, q: nat)
    requires PrefixFlagAt(s, q)
    requires forall p :: 0 <= p < q ==> !PrefixFlagAt(s, p)
    ensures FirstPrefixFlag(s, 0) == Some(q)
  {
  }

  /** One white-space character followed by a non-white-space one, or the end, is skipped alone. */
  lemma SkipOneSpace(s: string, k: nat)
    requires k < |s| && IsWhitespace(s[k])
    requires k + 1 == |s| || !IsWhitespace(s[k + 1])
    ensures SkipWhitespace(s, k) == k + 1
  {
  }

  /** From a position that does not open a quote, a tail without white space is captured whole. */
  lemma UnquotedTail(s: string, j: nat)
    requires j <= |s| && (j == |s| || s[j] != '"')
    requires forall k :: j <= k < |s| ==> !IsWhitespace(s[k])
    ensures ValueAt(s, j) == s[j..]
  {
    assert SkipNonWhitespace(s, j) == |s|;
  }

  /**
   * `--prefix` does not overlap itself, so when `before` holds no flag, none
   * starts in it once a flag is appended either.
   */
  lemma NoFlagAcrossFlag(before: string, d: string)
    requires NoPrefixFlagBefore(before, |before|)
    ensures NoPrefixFlagBefore(before + PrefixFlag + " " + d, |before|)
  {
    var s := before + PrefixFlag + " " + d;
    var n := |before|;
    assert s[n..n + |PrefixFlag|] == PrefixFlag;
    forall p | 0 <= p < n
      ensures !PrefixFlagAt(s, p)
    {
      if p + |PrefixFlag| < n {
        assert s[p..p + |PrefixFlag|] == before[p..p + |PrefixFlag|];
        assert s[p + |PrefixFlag|] == before[p + |PrefixFlag|];
        assert !PrefixFlagAt(before, p);
      } else if p + |PrefixFlag| == n {
        assert s[p + |PrefixFlag|] == PrefixFlag[0];
      }
    }
  }
}

=== FILE: resolver.dfy ===
/**
 * The script-tree resolver of `src/index.js`: `parseNpmScripts`,
 * `getScriptsArray`, `getSingleScriptObject` and `getActionsArray`.
 *
 * The source recurses through nested steps, hooks and prefix hops with no
 * cycle guard. Here every call of the resolver for one script name spends
 * one unit of `fuel`, and running out is the explicit `OutOfFuel` error.
 * The origin manifest path, a module-level variable in the source, is the
 * parameter `origin`.
 */
module Resolver {
  import opened Results
  import opened Text
  import opened Patterns
  import opened Actions
  import opened Tokenizer

  /** `manifest.config`, with the parameter default `{}` standing in for a missing table. */
  function ConfigOrEmpty(m: Manifest): map<string, string> {
    match m.config
    case Some(c) => c
    case None => map[]
  }

  /** `scripts[name]` is truthy: an own key whose body is not the empty string. */
  predicate Defines(m: Manifest, name: string) {
    name in m.scripts && m.scripts[name] != ""
  }

  /** The guard of a direct lookup: a non-empty key that the manifest defines. */
  predicate Resolvable(m: Manifest, key: string) {
    key != "" && Defines(m, key)
  }

  /**
   * The name a direct reference reports: its text before the first flag
   * when it has flags, from the start of that line (the match of
   * `COMMAND_NAME_REGEX`, as `ShownNameIsCommandName` states).
   */
  function ShownName(name: string): (shown: string)
    ensures !HasFlags(name) ==> shown == name
    ensures !HasFlags(shown)
    ensures !HasPrefixFlag(name) ==> !HasPrefixFlag(shown)
  {
    if HasFlags(name) then
      HasFlagsIffFlagStarts(name);
      var p := FlagStarts(name)[0];
      var a := LineStart(name, p - 1);
      ShownSliceIsPlain(name, a, p - 1);
      name[a..p - 1]
    else
      name
  }

  /** The reported name of a reference with flags is the command name the regex captures. */
  lemma ShownNameIsCommandName(name: string)
    requires HasFlags(name)
    ensures CommandName(name) == Some(ShownName(name))
  {
    CommandNameBeforeFirstFlag(name);
  }

  /** The key a direct reference is looked up by. */
  function LookupKey(name: string): (key: string)
    ensures !HasFlags(key)
    ensures !HasPrefixFlag(name) ==> !HasPrefixFlag(key)
    ensures |key| > 0 ==> !IsWhitespace(key[0]) && !IsWhitespace(key[|key| - 1])
  {
    TrimSpec(ShownName(name));
    TrimKeepsPlain(ShownName(name));
    Trim(ShownName(name))
  }

  /**
   * The key is the reported name with the white space at both ends removed:
   * an infix of that name with only white space outside it and none at its
   * own ends.
   */
  lemma LookupKeySpec(name: string)
    ensures var shown := ShownName(name);
            var key := LookupKey(name);
            var i := |shown| - |TrimStart(shown)|;
            && i + |key| <= |shown| && key == shown[i..i + |key|]
            && (forall j :: 0 <= j < i ==> IsWhitespace(shown[j]))
            && (forall j :: i + |key| <= j < |shown| ==> IsWhitespace(shown[j]))
            && (|key| > 0 ==> !IsWhitespace(key[0]) && !IsWhitespace(key[|key| - 1]))
  {
    TrimSpec(ShownName(name));
  }

  /** Trimming adds neither a flag nor a prefix reference. */
  lemma TrimKeepsPlain(s: string)
    ensures !HasFlags(s) ==> !HasFlags(Trim(s))
    ensures !HasPrefixFlag(s) ==> !HasPrefixFlag(Trim(s))
  {
    TrimSpec(s);
    var t := Trim(s);
    var off := |s| - |TrimStart(s)|;
    if !HasFlags(s) {
      NoFlagsInInfix(s, off, off + |t|);
    }
    NoPrefixFlagInInfix(s, off, off + |t|);
  }

  /** The text before the first flag, from any earlier start, has no flag and keeps out `--prefix `. */
  lemma ShownSliceIsPlain(s: string, a: nat, k: nat)
    requires HasFlags(s)
    requires k + 1 == FlagStarts(s)[0] && a <= k
    ensures !HasFlags(s[a..k])
    ensures !HasPrefixFlag(s) ==> !HasPrefixFlag(s[a..k])
  {
    ShownNameHasNoFlags(s, a, k);
    NoPrefixFlagInInfix(s, a, k);
  }

  /** The command name has no flag start: any would be an earlier `\s-`. */
  lemma ShownNameHasNoFlags(s: string, a: nat, k: nat)
    requires HasFlags(s)
    requires k + 1 == FlagStarts(s)[0] && a <= k
    ensures !HasFlags(s[a..k])
  {
    var n := s[a..k];
    forall i | 0 <= i < |n|
      ensures !FlagStartAt(n, i)
    {
      if FlagStartAt(n, i) {
        assert n[i - 1] == s[a + i - 1] && n[i] == s[a + i];
        FirstFlagStartIsLeast(s, a + i);
      }
    }
  }

  /** An infix of a string without flags has none. */
  lemma NoFlagsInInfix(s: string, i: nat, j: nat)
    requires i <= j <= |s| && !HasFlags(s)
    ensures !HasFlags(s[i..j])
  {
    var n := s[i..j];
    forall k | 0 <= k < |n|
      ensures !FlagStartAt(n, k)
    {
      if k > 0 {
        assert n[k - 1] == s[i + k - 1] && n[k] == s[i + k];
        assert !FlagStartAt(s, i + k);
      }
    }
  }

  /** An infix of a string without a prefix reference has none. */
  lemma NoPrefixFlagInInfix(s: string, i: nat, j: nat)
    requires i <= j <= |s|
    ensures !HasPrefixFlag(s) ==> !HasPrefixFlag(s[i..j])
  {
    NoOccurrenceInInfix(s, PrefixFlag + " ", i, j);
  }

  /** An infix of a string that lacks `pat` lacks it too. */
  lemma NoOccurrenceInInfix(s: string, pat: string, i: nat, j: nat)
    requires i <= j <= |s|
    ensures !Contains(s, pat) ==> !Contains(s[i..j], pat)
  {
    if Contains(s[i..j], pat) {
      var t := IndexOf(s[i..j], pat).value;
      assert s[i..j] == s[i..][..j - i];
      OccursInPrefix(s[i..], pat, j - i, t);
      OccursInSuffix(s, pat, i, t);
      ContainsIffOccurs(s, pat, i + t);
    }
  }

  /**
   * A hook name (`pre` or `post` followed by a looked-up key) carries no flag
   * and no prefix reference.
   */
  lemma HookNameIsPlain(hook: string, key: string)
    requires hook == PreScriptPrefix || hook == PostScriptPrefix
    requires !HasFlags(key) && !HasPrefixFlag(key)
    ensures !HasFlags(hook + key) && !HasPrefixFlag(hook + key)
  {
    HookNameHasNoFlags(hook, key);
    HookNameHasNoPrefixFlag(hook, key);
  }

  lemma HookNameHasNoFlags(hook: string, key: string)
    requires hook == PreScriptPrefix || hook == PostScriptPrefix
    requires !HasFlags(key)
    ensures !HasFlags(hook + key)
  {
    var h := hook + key;
    forall i | 0 <= i < |h|
      ensures !FlagStartAt(h, i)
    {
      if i > |hook| {
        assert h[i - 1] == key[i - 1 - |hook|] && h[i] == key[i - |hook|];
        assert !FlagStartAt(key, i - |hook|);
      } else if i == |hook| && i < |h| {
        assert h[i - 1] == hook[|hook| - 1];
      } else if 0 < i < |hook| {
        assert h[i] == hook[i];
      }
    }
  }

  lemma HookNameHasNoPrefixFlag(hook: string, key: string)
    requires hook == PreScriptPrefix || hook == PostScriptPrefix
    requires !HasPrefixFlag(key)
    ensures !HasPrefixFlag(hook + key)
  {
    var h := hook + key;
    var pat := PrefixFlag + " ";
    if Contains(h, pat) {
      var t := IndexOf(h, pat).value;
      assert h[t] == h[t..t + |pat|][0] == '-';
      NoDashInHook(hook, key, t);
      assert h[|hook|..] == key;
      OccursAfterPrefix(h, pat, |hook|, t);
    }
  }

  /** Neither hook prefix contains a dash, so a flag in a hook name starts in the key. */
  lemma NoDashInHook(hook: string, key: string, t: nat)
    requires hook == PreScriptPrefix || hook == PostScriptPrefix
    requires t < |hook + key| && (hook + key)[t] == '-'
    ensures t >= |hook|
  {
  }

  /** A trimmed piece without `&&` is itself without `&&`. */
  lemma TrimKeepsAbsence(s: string, pat: string)
    requires !Contains(s, pat)
    ensures !Contains(Trim(s), pat)
  {
    TrimSpec(s);
    var off := |s| - |TrimStart(s)|;
    NoOccurrenceInInfix(s, pat, off, off + |Trim(s)|);
  }

  /**
   * The serial steps of a script body: the body cut at every `&&`, each
   * piece trimmed. There is always at least one step, and no step contains
   * the delimiter or starts or ends with white space.
   */
  function StepsOf(body: string): (steps: seq<string>)
    ensures |steps| == |Split(body, SerialCommandDelimiter)| && |steps| >= 1
    ensures forall i :: 0 <= i < |steps| ==> !Contains(steps[i], SerialCommandDelimiter)
    ensures forall i :: 0 <= i < |steps| && |steps[i]| > 0 ==>
              !IsWhitespace(steps[i][0]) && !IsWhitespace(steps[i][|steps[i]| - 1])
  {
    var pieces := Split(body, SerialCommandDelimiter);
    var steps := seq(|pieces|, i requires 0 <= i < |pieces| => Trim(pieces[i]));
    forall i | 0 <= i < |steps|
      ensures !Contains(steps[i], SerialCommandDelimiter)
      ensures |steps[i]| > 0 ==> !IsWhitespace(steps[i][0]) && !IsWhitespace(steps[i][|steps[i]| - 1])
    {
      TrimSpec(pieces[i]);
      TrimKeepsAbsence(pieces[i], SerialCommandDelimiter);
    }
    steps
  }

  /**
   * The directory a prefix reference points at: the captured value, or, when
   * that value references the configuration, the raw configured value with
   * no decoration.
   */
  function PrefixDirectory(name: string, m: Manifest): (r: Result<string, ResolveError>)
    requires HasPrefixFlag(name)
    ensures !HasConfigMarker(PrefixValue(name)) ==> r == Ok(PrefixValue(name))
    ensures HasConfigMarker(PrefixValue(name)) ==>
              var prop := ConfigProp(PrefixValue(name));
              && (m.config.None? ==> r == Err(ConfigTableMissing))
              && (m.config.Some? && prop !in m.config.value ==> r == Err(PrefixPathUndefined(prop)))
              && (m.config.Some? && prop in m.config.value ==> r == Ok(m.config.value[prop]))
  {
    var value := PrefixValue(name);
    if HasConfigMarker(value) then
      var prop := ConfigProp(value);
      match m.config
      case None => Err(ConfigTableMissing)
      case Some(config) =>
        if prop in config then Ok(config[prop]) else Err(PrefixPathUndefined(prop))
    else
      Ok(value)
  }

  /**
   * `--prefix <dir>`, with a directory that has no white space, does not
   * open a quote and references no configuration, hops into `dir` itself.
   */
  lemma PrefixDirectoryPlain(before: string, dir: string, m: Manifest)
    requires FirstPrefixFlag(before, 0).None?
    requires forall k :: 0 <= k < |dir| ==> !IsWhitespace(dir[k])
    requires |dir| == 0 || dir[0] != '"'
    requires !HasConfigMarker(dir)
    ensures HasPrefixFlag(before + PrefixFlag + " " + dir)
    ensures PrefixDirectory(before + PrefixFlag + " " + dir, m) == Ok(dir)
  {
    assert NoPrefixFlagBefore(before, |before|);
    PrefixValueOf(before, dir);
  }

  /**
   * `--prefix $npm_package_config_<prop>` hops into the raw configured value
   * of `prop`; a manifest without a `config` table, or one without `prop`,
   * makes the hop fail.
   */
  lemma PrefixDirectoryFromConfig(before: string, prop: string, m: Manifest)
    requires FirstPrefixFlag(before, 0).None?
    requires forall k :: 0 <= k < |prop| ==> !IsWhitespace(prop[k])
    ensures HasPrefixFlag(before + PrefixFlag + " " + (ConfigMarker + prop))
    ensures PrefixDirectory(before + PrefixFlag + " " + (ConfigMarker + prop), m)
            == match m.config
               case None => Err(ConfigTableMissing)
               case Some(c) => if prop in c then Ok(c[prop]) else Err(PrefixPathUndefined(prop))
  {
    var d := ConfigMarker + prop;
    forall k | 0 <= k < |d|
      ensures !IsWhitespace(d[k])
    {
      if k >= |ConfigMarker| {
        assert d[k] == prop[k - |ConfigMarker|];
      }
    }
    assert NoPrefixFlagBefore(before, |before|);
    PrefixValueOf(before, d);
    ConfigPropOfReference(prop);
  }

  /** The name a prefix reference resolves in the other manifest: the reference without its flags, trimmed. */
  function PrefixTarget(name: string): (target: string)
    ensures !HasFlags(target)
  {
    var stripped := StripFlags(name);
    var target := Trim(stripped);
    TrimSpec(stripped);
    var off := |stripped| - |TrimStart(stripped)|;
    NoFlagsInInfix(stripped, off, off + |target|);
    target
  }

  /**
   * The target of a prefix reference is the text between its flag spans,
   * joined and trimmed; a reference without flags is only trimmed.
   */
  lemma PrefixTargetKeepsGaps(name: string)
    ensures OrderedStarts(name, 0, FlagStarts(name))
    ensures PrefixTarget(name) == Trim(Join(Gaps(name, 0, FlagStarts(name)), ""))
    ensures !HasFlags(name) ==> PrefixTarget(name) == Trim(name)
  {
    PrefixTargetIsTrimmedStrip(name);
    StripFlagsKeepsGaps(name);
  }

  lemma PrefixTargetIsTrimmedStrip(name: string)
    ensures PrefixTarget(name) == Trim(StripFlags(name))
  {
  }

  /** The scripts `parseNpmScripts` maps: the requested one, or every key in declared order. */
  function ScriptsToMap(m: Manifest, desired: string): (names: seq<string>)
    ensures desired != "" ==> names == [desired]
    ensures desired == "" ==> names == m.order
  {
    if desired != "" then [desired] else m.order
  }

  /** Marks a script as the first one of a hop into the manifest at `path`. */
  function Locate(a: Action, path: string): (b: Action)
    ensures a.Script? ==> b.Script? && b.location == Some(path)
    ensures a.Script? ==> b.(location := a.location) == a
  {
    if a.Script? then a.(location := Some(path)) else a
  }

  /**
   * What `getSingleScriptObject` makes of a reference before it recurses: a
   * redirection into the manifest of a prefix directory, a key the manifest
   * does not define, or a script found in this manifest with its reported
   * name, its parameters, its key and its serial steps.
   */
  datatype Lookup =
    | Redirect(dir: Result<string, ResolveError>, target: string)
    | Missing(key: string)
    | Found(shown: string, params: seq<Param>, key: string, steps: seq<string>)

  /**
   * The non-recursive half of `getSingleScriptObject`. A reference with
   * `--prefix ` is redirected (its own flags dropped); any other is looked up
   * by its trimmed name, and its body becomes its steps.
   */
  function LookupOf(m: Manifest, name: string): (l: Lookup)
    ensures HasPrefixFlag(name) <==> l.Redirect?
    ensures l.Found? ==> Resolvable(m, l.key) && !HasFlags(l.key) && !HasPrefixFlag(l.key)
  {
    if HasPrefixFlag(name) then Redirect(PrefixDirectory(name, m), PrefixTarget(name))
    else
      var params := if HasFlags(name) then ExtractParams(name, ConfigOrEmpty(m)) else [];
      var key := LookupKey(name);
      if !Resolvable(m, key) then Missing(key)
      else Found(ShownName(name), params, key, StepsOf(m.scripts[key]))
  }

  /**
   * `getSingleScriptObject`: resolves one script reference against manifest
   * `m`. Every call spends one unit of fuel. The shape of the result is
   * stated by the lemmas of module `ResolverProperties`.
   */
  function Resolve(ws: Workspace, origin: string, m: Manifest, name: string, fuel: nat)
    : (r: Result<Action, ResolveError>)
    ensures r.Ok? ==> r.value.Script?
    decreases fuel, 0, 0
  {
    if fuel == 0 then Err(OutOfFuel)
    else ResolveLookup(ws, origin, m, name, fuel - 1)
  }

  /** Looks `name` up in `m` and follows what the lookup found. */
  function ResolveLookup(ws: Workspace, origin: string, m: Manifest, name: string, fuel: nat)
    : (r: Result<Action, ResolveError>)
    ensures r.Ok? ==> r.value.Script?
    decreases fuel, 5, 0
  {
    Follow(ws, origin, m, LookupOf(m, name), fuel)
  }

  /**
   * The recursive half of `getSingleScriptObject`: a redirection takes the
   * first script `parseNpmScripts` finds for the target in the other
   * manifest; a found script gets its steps resolved, then its `pre` and
   * `post` hooks.
   */
  function Follow(ws: Workspace, origin: string, m: Manifest, l: Lookup, fuel: nat)
    : (r: Result<Action, ResolveError>)
    ensures r.Ok? ==> r.value.Script?
    decreases fuel, 4, 0
  {
    match l
    case Redirect(dir, target) =>
      var d :- dir;
      var path := ws.manifestPath(d);
      var tree :- ParseNpmScripts(ws, origin, path, target, fuel);
      if |tree| == 0 then Err(NothingToLocate(path)) else Ok(tree[0])
    case Missing(key) => Err(ScriptNotFound(key))
    case Found(shown, params, key, steps) =>
      var actions :- ResolveSteps(ws, origin, m, steps, fuel);
      var pre :- ResolveHook(ws, origin, m, PreScriptPrefix, key, fuel);
      var post :- ResolveHook(ws, origin, m, PostScriptPrefix, key, fuel);
      Ok(Script(shown, params, pre, post, actions, None))
  }

  /** Resolves the `pre` or `post` hook of the script with key `key`, or "N/A" when it has none. */
  function ResolveHook(ws: Workspace, origin: string, m: Manifest, hook: string, key: string, fuel: nat)
    : (r: Result<Hook, ResolveError>)
    ensures r.Ok? && r.value.Hooked? ==> r.value.script.Script?
    decreases fuel, 1, 0
  {
    if Defines(m, hook + key) then
      var script :- Resolve(ws, origin, m, hook + key, fuel);
      Ok(Hooked(script))
    else
      Ok(NotAvailable)
  }

  /**
   * One serial step: a nested `npm run` step is resolved as a script of the
   * same manifest; any other step is a command.
   */
  function ResolveStep(ws: Workspace, origin: string, m: Manifest, step: string, fuel: nat)
    : (r: Result<Action, ResolveError>)
    ensures r.Ok? && IsNestedScript(step) ==> r.value.Script?
    ensures !IsNestedScript(step) ==> r.Ok? && r.value.Command?
    decreases fuel, 1, 0
  {
    if IsNestedScript(step) then Resolve(ws, origin, m, NestedScriptName(step), fuel)
    else Ok(SingleCommand(step, ConfigOrEmpty(m)))
  }

  /** `getActionsArray`: the steps resolved left to right; the first failure stops the fold. */
  function ResolveSteps(ws: Workspace, origin: string, m: Manifest, steps: seq<string>, fuel: nat)
    : (r: Result<seq<Action>, ResolveError>)
    ensures r.Ok? ==> |r.value| == |steps|
    decreases fuel, 2, |steps|
  {
    if |steps| == 0 then Ok([])
    else
      var first :- ResolveStep(ws, origin, m, steps[0], fuel);
      var rest :- ResolveSteps(ws, origin, m, steps[1..], fuel);
      Ok([first] + rest)
  }

  /** `getScriptsArray`: each named script resolved, in the given order. */
  function ResolveAll(ws: Workspace, origin: string, m: Manifest, names: seq<string>, fuel: nat)
    : (r: Result<seq<Action>, ResolveError>)
    ensures r.Ok? ==> |r.value| == |names|
    ensures r.Ok? ==> forall i :: 0 <= i < |names| ==> r.value[i].Script?
    decreases fuel, 2, |names|
  {
    if |names| == 0 then Ok([])
    else
      var first :- Resolve(ws, origin, m, names[0], fuel);
      var rest :- ResolveAll(ws, origin, m, names[1..], fuel);
      Ok([first] + rest)
  }

  /**
   * `parseNpmScripts`: loads the manifest at `path` and resolves the
   * requested script, or every script when none is requested. When `path`
   * is not the origin manifest, the first result records `path` as its
   * location.
   */
  function ParseNpmScripts(ws: Workspace, origin: string, path: string, desired: string, fuel: nat)
    : (r: Result<seq<Action>, ResolveError>)
    ensures path !in ws.manifests ==> r == Err(ManifestNotAccessible(path))
    ensures r.Ok? ==> path in ws.manifests
    ensures r.Ok? ==> |r.value| == |ScriptsToMap(ws.manifests[path], desired)|
    ensures r.Ok? ==> forall i :: 0 <= i < |r.value| ==> r.value[i].Script?
    ensures r.Ok? && path != origin ==> |r.value| > 0 && r.value[0].location == Some(path)
    decreases fuel, 3, 0
  {
    if path !in ws.manifests then Err(ManifestNotAccessible(path))
    else
      var m := ws.manifests[path];
      var result :- ResolveAll(ws, origin, m, ScriptsToMap(m, desired), fuel);
      if path == origin then Ok(result)
      else if |result| == 0 then Err(NothingToLocate(path))
      else Ok([Locate(result[0], path)] + result[1..])
  }

  /**
   * `mapNpmScripts` without the report: the manifest of `targetDir` is the
   * origin, and the requested script (or every script) is resolved there.
   */
  function MapNpmScripts(ws: Workspace, targetDir: string, scriptName: string, fuel: nat)
    : (r: Result<seq<Action>, ResolveError>)
    ensures ws.manifestPath(targetDir) !in ws.manifests ==>
              r == Err(ManifestNotAccessible(ws.manifestPath(targetDir)))
    ensures r.Ok? ==> |r.value| == |ScriptsToMap(ws.manifests[ws.manifestPath(targetDir)], scriptName)|
  {
    var path := ws.manifestPath(targetDir);
    ParseNpmScripts(ws, path, path, scriptName, fuel)
  }
}

=== FILE: resolver_props.dfy ===
/**
 * What the resolver of `src/index.js` promises about the trees it builds:
 * the shape of a directly looked-up script (its name, parameters, hooks and
 * steps), what a prefix hop yields, that results keep the order of the
 * names asked for, and that the fuel bound is only a bound (more fuel never
 * changes a result that did not run out).
 */
module ResolverProperties {
  import opened Results
  import opened Text
  import opened Patterns
  import opened Actions
  import opened Tokenizer
  import opened Resolver

  // ---------------------------------------------------------------------------
  // Shape of a resolved script
  // ---------------------------------------------------------------------------

  /**
   * A hook is "N/A" exactly when the manifest does not define `pre`/`post`
   * followed by the key; otherwise it is that script, resolved in the same
   * manifest, named by the hook name and without parameters.
   */
  lemma HookShape(ws: Workspace, origin: string, m: Manifest, hook: string, key: string, fuel: nat)
    requires hook == PreScriptPrefix || hook == PostScriptPrefix
    requires !HasFlags(key) && !HasPrefixFlag(key)
    requires ResolveHook(ws, origin, m, hook, key, fuel).Ok?
    ensures var h := ResolveHook(ws, origin, m, hook, key, fuel).value;
            && (h.Hooked? <==> Defines(m, hook + key))
            && (h.Hooked? ==>
                  && Resolve(ws, origin, m, hook + key, fuel) == Ok(h.script)
                  && h.script.name == hook + key
                  && h.script.params == []
                  && h.script.location.None?)
  {
    if Defines(m, hook + key) {
      HookNameIsPlain(hook, key);
      PlainShape(ws, origin, m, hook + key, fuel);
    }
  }

  /** One step: a nested step is the script it names, resolved in the same manifest; any other is its command. */
  predicate StepResolvedAs(ws: Workspace, origin: string, m: Manifest, step: string, fuel: nat, a: Action) {
    if IsNestedScript(step) then Resolve(ws, origin, m, NestedScriptName(step), fuel) == Ok(a)
    else a == SingleCommand(step, ConfigOrEmpty(m))
  }

  lemma StepShape(ws: Workspace, origin: string, m: Manifest, step: string, fuel: nat)
    requires ResolveStep(ws, origin, m, step, fuel).Ok?
    ensures StepResolvedAs(ws, origin, m, step, fuel, ResolveStep(ws, origin, m, step, fuel).value)
  {
  }

  /**
   * `getActionsArray` keeps the order of the steps: the action at position
   * `i` is step `i` resolved on its own.
   */
  lemma {:induction false} StepsShape(ws: Workspace, origin: string, m: Manifest, steps: seq<string>, fuel: nat)
    requires ResolveSteps(ws, origin, m, steps, fuel).Ok?
    ensures var r := ResolveSteps(ws, origin, m, steps, fuel).value;
            && |r| == |steps|
            && forall i :: 0 <= i < |steps| ==> ResolveStep(ws, origin, m, steps[i], fuel) == Ok(r[i])
    decreases |steps|
  {
    if |steps| > 0 {
      StepsUnfold(ws, origin, m, steps, fuel);
      StepsShape(ws, origin, m, steps[1..], fuel);
      PointwiseCons(steps, ResolveStep(ws, origin, m, steps[0], fuel).value,
                    ResolveSteps(ws, origin, m, steps[1..], fuel).value,
                    (s, a) => ResolveStep(ws, origin, m, s, fuel) == Ok(a));
    }
  }

  /** A relation that holds between the head pair and pointwise on the tails holds pointwise on the whole. */
  lemma PointwiseCons<A, B>(xs: seq<A>, y: B, ys: seq<B>, rel: (A, B) -> bool)
    requires |xs| > 0 && |ys| == |xs| - 1
    requires rel(xs[0], y)
    requires forall i :: 0 <= i < |ys| ==> rel(xs[1..][i], ys[i])
    ensures forall i :: 0 <= i < |xs| ==> rel(xs[i], ([y] + ys)[i])
  {
    forall i | 1 <= i < |xs|
      ensures rel(xs[i], ([y] + ys)[i])
    {
      assert xs[i] == xs[1..][i - 1] && ([y] + ys)[i] == ys[i - 1];
    }
  }

  lemma StepsUnfold(ws: Workspace, origin: string, m: Manifest, steps: seq<string>, fuel: nat)
    requires |steps| > 0 && ResolveSteps(ws, origin, m, steps, fuel).Ok?
    ensures ResolveStep(ws, origin, m, steps[0], fuel).Ok?
    ensures ResolveSteps(ws, origin, m, steps[1..], fuel).Ok?
    ensures ResolveSteps(ws, origin, m, steps, fuel).value
            == [ResolveStep(ws, origin, m, steps[0], fuel).value] + ResolveSteps(ws, origin, m, steps[1..], fuel).value
  {
  }

  /**
   * Every action of a resolved step list is its own step resolved alone, in
   * the order of the steps: a nested step as the script it names, any other
   * as its command.
   */
  lemma {:induction false} StepsResolvedAs(ws: Workspace, origin: string, m: Manifest, steps: seq<string>, fuel: nat)
    requires ResolveSteps(ws, origin, m, steps, fuel).Ok?
    ensures var r := ResolveSteps(ws, origin, m, steps, fuel).value;
            && |r| == |steps|
            && (forall i :: 0 <= i < |steps| ==> ResolveStep(ws, origin, m, steps[i], fuel) == Ok(r[i]))
            && (forall i :: 0 <= i < |steps| ==> StepResolvedAs(ws, origin, m, steps[i], fuel, r[i]))
  {
    var r := ResolveSteps(ws, origin, m, steps, fuel).value;
    StepsShape(ws, origin, m, steps, fuel);
    forall i | 0 <= i < |steps|
      ensures StepResolvedAs(ws, origin, m, steps[i], fuel, r[i])
    {
      StepShape(ws, origin, m, steps[i], fuel);
    }
  }

  /**
   * A reference without `--prefix `: a key the manifest does not define is
   * "not found"; otherwise the script reports the reference's text before
   * its first flag (the whole reference when it has none), one parameter per
   * flag span, and its `pre` and `post` hooks.
   */
  lemma DirectShape(ws: Workspace, origin: string, m: Manifest, name: string, fuel: nat)
    requires fuel > 0 && !HasPrefixFlag(name)
    ensures var key := LookupKey(name);
            !Resolvable(m, key) ==> Resolve(ws, origin, m, name, fuel) == Err(ScriptNotFound(key))
    ensures var key := LookupKey(name);
            var r := Resolve(ws, origin, m, name, fuel);
            r.Ok? ==>
              && Resolvable(m, key)
              && var a := r.value;
              && (!HasFlags(name) ==> a.name == name && a.params == [])
              && (HasFlags(name) ==>
                    var p := FlagStarts(name)[0];
                    a.name == name[LineStart(name, p - 1)..p - 1])
              && |a.params| == |FlagStarts(name)|
              && (forall k :: 0 <= k < |a.params| ==>
                    a.params[k] == ParamOf(FlagSpanAt(name, FlagStarts(name)[k]), ConfigOrEmpty(m)))
              && a.location.None?
  {
    LookupShape(m, name);
    FollowLookup(ws, origin, m, name, fuel);
  }

  /** A resolved script shows the name and parameters its lookup found; a missing key is "not found". */
  lemma FollowLookup(ws: Workspace, origin: string, m: Manifest, name: string, fuel: nat)
    requires fuel > 0 && !HasPrefixFlag(name)
    ensures var l := LookupOf(m, name);
            var r := Resolve(ws, origin, m, name, fuel);
            && (l.Missing? ==> r == Err(ScriptNotFound(l.key)))
            && (r.Ok? ==>
                  l.Found? && r.value.name == l.shown && r.value.params == l.params && r.value.location.None?)
  {
    var l := LookupOf(m, name);
    ResolveUnfold(ws, origin, m, name, fuel);
    if l.Found? && Follow(ws, origin, m, l, fuel - 1).Ok? {
      FoundParts(ws, origin, m, l, fuel - 1);
    }
  }

  /**
   * A found script is assembled from its looked-up name and parameters, its
   * resolved steps and its two resolved hooks, and records no location.
   */
  lemma FoundParts(ws: Workspace, origin: string, m: Manifest, l: Lookup, fuel: nat)
    requires l.Found? && Follow(ws, origin, m, l, fuel).Ok?
    ensures var a := Follow(ws, origin, m, l, fuel).value;
            && a.name == l.shown && a.params == l.params && a.location.None?
            && ResolveSteps(ws, origin, m, l.steps, fuel) == Ok(a.actions)
            && ResolveHook(ws, origin, m, PreScriptPrefix, l.key, fuel) == Ok(a.pre)
            && ResolveHook(ws, origin, m, PostScriptPrefix, l.key, fuel) == Ok(a.post)
  {
  }

  /** What the lookup of a reference without `--prefix ` yields, before any resolution. */
  lemma LookupShape(m: Manifest, name: string)
    requires !HasPrefixFlag(name)
    ensures var l := LookupOf(m, name);
            var key := LookupKey(name);
            && (l.Missing? <==> !Resolvable(m, key))
            && (l.Missing? ==> l.key == key)
            && (l.Found? ==>
                  && l.key == key
                  && l.steps == StepsOf(m.scripts[key])
                  && (!HasFlags(name) ==> l.shown == name && l.params == [])
                  && (HasFlags(name) ==>
                        var p := FlagStarts(name)[0];
                        l.shown == name[LineStart(name, p - 1)..p - 1])
                  && |l.params| == |FlagStarts(name)|
                  && (forall k :: 0 <= k < |l.params| ==>
                        l.params[k] == ParamOf(FlagSpanAt(name, FlagStarts(name)[k]), ConfigOrEmpty(m))))
  {
    HasFlagsIffFlagStarts(name);
  }

  /** A resolved reference without flags shows its own text, has no parameters and no location. */
  lemma PlainShape(ws: Workspace, origin: string, m: Manifest, name: string, fuel: nat)
    requires !HasFlags(name) && !HasPrefixFlag(name)
    requires Resolve(ws, origin, m, name, fuel).Ok?
    ensures var a := Resolve(ws, origin, m, name, fuel).value;
            a.name == name && a.params == [] && a.location.None?
  {
    PlainLookup(m, name);
    FollowLookup(ws, origin, m, name, fuel);
  }

  lemma PlainLookup(m: Manifest, name: string)
    requires !HasFlags(name) && !HasPrefixFlag(name)
    ensures var l := LookupOf(m, name);
            l.Found? ==> l.shown == name && l.params == []
  {
  }

  /**
   * Following a found lookup resolves the body's `&&`-pieces in order:
   * there is one action per piece, and action `i` is piece `i`, trimmed and
   * resolved in the same manifest.
   */
  lemma FoundActions(ws: Workspace, origin: string, m: Manifest, shown: string, params: seq<Param>,
                     key: string, body: string, fuel: nat, a: Action)
    requires Follow(ws, origin, m, Found(shown, params, key, StepsOf(body)), fuel) == Ok(a)
    ensures |a.actions| == |Split(body, SerialCommandDelimiter)|
    ensures forall i :: 0 <= i < |a.actions| ==>
              ResolveStep(ws, origin, m, Trim(Split(body, SerialCommandDelimiter)[i]), fuel) == Ok(a.actions[i])
  {
    FoundParts(ws, origin, m, Found(shown, params, key, StepsOf(body)), fuel);
    StepsAsPieces(ws, origin, m, body, fuel, a.actions);
  }

  /** Action `i` is the `i`-th `&&`-piece of `body`, trimmed and resolved in `m`. */
  predicate PiecesResolved(ws: Workspace, origin: string, m: Manifest, body: string, fuel: nat, actions: seq<Action>) {
    var pieces := Split(body, SerialCommandDelimiter);
    && |actions| == |pieces|
    && (forall i :: 0 <= i < |pieces| ==>
          ResolveStep(ws, origin, m, Trim(pieces[i]), fuel) == Ok(actions[i]))
  }

  /** Resolved steps of a body are its trimmed `&&`-pieces, each resolved. */
  lemma StepsAsPieces(ws: Workspace, origin: string, m: Manifest, body: string, fuel: nat, actions: seq<Action>)
    requires ResolveSteps(ws, origin, m, StepsOf(body), fuel) == Ok(actions)
    ensures PiecesResolved(ws, origin, m, body, fuel, actions)
  {
    StepsShape(ws, origin, m, StepsOf(body), fuel);
    StepsCoverBody(body);
  }

  /**
   * Following a found lookup fills the `pre` and `post` fields with the hook
   * scripts exactly when the manifest defines them, each named by its hook
   * name; a found key never has flags or `--prefix `.
   */
  lemma FoundHooks(ws: Workspace, origin: string, m: Manifest, l: Lookup, fuel: nat, a: Action)
    requires l.Found? && !HasFlags(l.key) && !HasPrefixFlag(l.key)
    requires Follow(ws, origin, m, l, fuel) == Ok(a)
    ensures a.pre.Hooked? <==> Defines(m, PreScriptPrefix + l.key)
    ensures a.pre.Hooked? ==> a.pre.script.name == PreScriptPrefix + l.key
    ensures a.post.Hooked? <==> Defines(m, PostScriptPrefix + l.key)
    ensures a.post.Hooked? ==> a.post.script.name == PostScriptPrefix + l.key
  {
    FoundParts(ws, origin, m, l, fuel);
    HookNamed(ws, origin, m, PreScriptPrefix, l.key, fuel, a.pre);
    HookNamed(ws, origin, m, PostScriptPrefix, l.key, fuel, a.post);
  }

  lemma HookNamed(ws: Workspace, origin: string, m: Manifest, hook: string, key: string, fuel: nat, h: Hook)
    requires hook == PreScriptPrefix || hook == PostScriptPrefix
    requires !HasFlags(key) && !HasPrefixFlag(key)
    requires ResolveHook(ws, origin, m, hook, key, fuel) == Ok(h)
    ensures h.Hooked? <==> Defines(m, hook + key)
    ensures h.Hooked? ==> h.script.name == hook + key
  {
    HookShape(ws, origin, m, hook, key, fuel);
  }

  /** Scripts are split into steps exactly at the `&&` delimiters: joining the pieces back gives the body. */
  lemma StepsCoverBody(body: string)
    ensures var pieces := Split(body, SerialCommandDelimiter);
            && Join(pieces, SerialCommandDelimiter) == body
            && |StepsOf(body)| == |pieces|
            && forall i :: 0 <= i < |pieces| ==> StepsOf(body)[i] == Trim(pieces[i])
  {
    JoinSplit(body, SerialCommandDelimiter);
  }

  // ---------------------------------------------------------------------------
  // Order of results and prefix hops
  // ---------------------------------------------------------------------------

  /** `getScriptsArray` keeps the order of the names: the i-th result is the i-th name resolved. */
  lemma {:induction false} ResolveAllInOrder(ws: Workspace, origin: string, m: Manifest, names: seq<string>, fuel: nat)
    requires ResolveAll(ws, origin, m, names, fuel).Ok?
    ensures var r := ResolveAll(ws, origin, m, names, fuel).value;
            |r| == |names| && forall i :: 0 <= i < |names| ==> Resolve(ws, origin, m, names[i], fuel) == Ok(r[i])
    decreases |names|
  {
    if |names| > 0 {
      ResolveAllInOrder(ws, origin, m, names[1..], fuel);
      var rest := ResolveAll(ws, origin, m, names[1..], fuel).value;
      assert ResolveAll(ws, origin, m, names, fuel).value == [Resolve(ws, origin, m, names[0], fuel).value] + rest;
      PointwiseCons(names, Resolve(ws, origin, m, names[0], fuel).value, rest,
                    (n, a) => Resolve(ws, origin, m, n, fuel) == Ok(a));
    }
  }

  /**
   * `parseNpmScripts` returns the requested scripts in order; only the first
   * one of a hop into another manifest records where it was found.
   */
  lemma ParseInOrder(ws: Workspace, origin: string, path: string, desired: string, fuel: nat)
    requires ParseNpmScripts(ws, origin, path, desired, fuel).Ok?
    ensures path in ws.manifests
    ensures var m := ws.manifests[path];
            var names := ScriptsToMap(m, desired);
            var r := ParseNpmScripts(ws, origin, path, desired, fuel).value;
            && |r| == |names|
            && (forall i :: 0 < i < |names| ==> Resolve(ws, origin, m, names[i], fuel) == Ok(r[i]))
            && (|names| > 0 ==>
                  && Resolve(ws, origin, m, names[0], fuel).Ok?
                  && var first := Resolve(ws, origin, m, names[0], fuel).value;
                  r[0] == if path == origin then first else Locate(first, path))
  {
    var m := ws.manifests[path];
    ResolveAllInOrder(ws, origin, m, ScriptsToMap(m, desired), fuel);
  }

  /**
   * A prefix reference is the target script of the manifest in the prefix
   * directory: the reference without its flags, resolved there (and marked
   * with that manifest's path when it is not the origin). It keeps none of
   * the caller's flags. When nothing but flags is left of the reference, the
   * whole manifest there is mapped and its first key's script is taken.
   */
  lemma PrefixHop(ws: Workspace, origin: string, m: Manifest, name: string, fuel: nat)
    requires HasPrefixFlag(name)
    requires Resolve(ws, origin, m, name, fuel).Ok?
    ensures PrefixDirectory(name, m).Ok?
    ensures var path := ws.manifestPath(PrefixDirectory(name, m).value);
            var a := Resolve(ws, origin, m, name, fuel).value;
            && path in ws.manifests
            && (path != origin ==> a.location == Some(path))
            && fuel > 0
            && (PrefixTarget(name) != "" ==>
                  && Resolve(ws, origin, ws.manifests[path], PrefixTarget(name), fuel - 1).Ok?
                  && var b := Resolve(ws, origin, ws.manifests[path], PrefixTarget(name), fuel - 1).value;
                  a == if path == origin then b else Locate(b, path))
            && (PrefixTarget(name) != "" && !HasPrefixFlag(PrefixTarget(name)) ==>
                  a.name == PrefixTarget(name) && a.params == [])
            && (PrefixTarget(name) == "" ==>
                  && var pm := ws.manifests[path];
                  && |pm.order| > 0
                  && Resolve(ws, origin, pm, pm.order[0], fuel - 1).Ok?
                  && var b := Resolve(ws, origin, pm, pm.order[0], fuel - 1).value;
                  a == if path == origin then b else Locate(b, path))
  {
    var target := PrefixTarget(name);
    RedirectUnfold(ws, origin, m, name, fuel);
    var path := ws.manifestPath(PrefixDirectory(name, m).value);
    if target != "" {
      HopFirst(ws, origin, path, target, fuel - 1);
    } else {
      ParseInOrder(ws, origin, path, target, fuel - 1);
    }
    if target != "" && !HasPrefixFlag(target) {
      PlainShape(ws, origin, ws.manifests[path], target, fuel - 1);
    }
  }

  /** A resolved prefix reference is the first script of the target's tree in the prefix manifest. */
  lemma RedirectUnfold(ws: Workspace, origin: string, m: Manifest, name: string, fuel: nat)
    requires HasPrefixFlag(name)
    requires Resolve(ws, origin, m, name, fuel).Ok?
    ensures fuel > 0 && PrefixDirectory(name, m).Ok?
    ensures var path := ws.manifestPath(PrefixDirectory(name, m).value);
            var tree := ParseNpmScripts(ws, origin, path, PrefixTarget(name), fuel - 1);
            && tree.Ok? && |tree.value| > 0
            && Resolve(ws, origin, m, name, fuel).value == tree.value[0]
  {
    ResolveUnfold(ws, origin, m, name, fuel);
    assert LookupOf(m, name) == Redirect(PrefixDirectory(name, m), PrefixTarget(name));
  }

  /** The tree of one named script holds that script, located when it comes from another manifest. */
  lemma HopFirst(ws: Workspace, origin: string, path: string, target: string, fuel: nat)
    requires target != ""
    requires ParseNpmScripts(ws, origin, path, target, fuel).Ok?
    ensures path in ws.manifests
    ensures var b := Resolve(ws, origin, ws.manifests[path], target, fuel);
            var tree := ParseNpmScripts(ws, origin, path, target, fuel).value;
            && b.Ok? && |tree| == 1
            && tree[0] == if path == origin then b.value else Locate(b.value, path)
  {
    ParseInOrder(ws, origin, path, target, fuel);
  }

  /**
   * A prefix reference with no flag span (its `--prefix` is not preceded by
   * white space, as in the nested step `npm run --prefix dir build`) and no
   * white space at its ends is its own hop target. Every hop asks for the
   * same reference again, so no amount of fuel resolves it: the source
   * recurses without bound.
   */
  lemma {:induction false} SelfTargetNeverResolves(ws: Workspace, origin: string, m: Manifest, name: string, fuel: nat)
    requires HasPrefixFlag(name) && !HasFlags(name)
    requires |name| > 0 ==> !IsWhitespace(name[0]) && !IsWhitespace(name[|name| - 1])
    ensures PrefixTarget(name) == name
    ensures !Resolve(ws, origin, m, name, fuel).Ok?
    decreases fuel
  {
    TrimKeepsTrimmed(name);
    if Resolve(ws, origin, m, name, fuel).Ok? {
      RedirectUnfold(ws, origin, m, name, fuel);
      var path := ws.manifestPath(PrefixDirectory(name, m).value);
      HopFirst(ws, origin, path, name, fuel - 1);
      SelfTargetNeverResolves(ws, origin, ws.manifests[path], name, fuel - 1);
      assert false;
    }
  }

  /** The nested step `npm run <name>` with such a self-targeting prefix reference never resolves. */
  lemma NestedSelfTargetStepFails(ws: Workspace, origin: string, m: Manifest, name: string, fuel: nat)
    requires HasPrefixFlag(name) && !HasFlags(name) && FirstQuietFlag(name, 0).None?
    requires |name| > 0 ==> !IsWhitespace(name[0]) && !IsWhitespace(name[|name| - 1])
    ensures IsNestedScript(NpmRun + " " + name)
    ensures !ResolveStep(ws, origin, m, NpmRun + " " + name, fuel).Ok?
  {
    NestedScriptNameOfStep(name);
    SelfTargetNeverResolves(ws, origin, m, name, fuel);
  }

  /** Mapping a whole manifest from its own directory marks no direct reference with a location. */
  lemma OriginResultsAreUnlocated(ws: Workspace, targetDir: string, scriptName: string, fuel: nat)
    requires MapNpmScripts(ws, targetDir, scriptName, fuel).Ok?
    ensures ws.manifestPath(targetDir) in ws.manifests
    ensures var m := ws.manifests[ws.manifestPath(targetDir)];
            var names := ScriptsToMap(m, scriptName);
            var r := MapNpmScripts(ws, targetDir, scriptName, fuel).value;
            && |r| == |names|
            && forall i :: 0 <= i < |r| && !HasPrefixFlag(names[i]) ==> r[i].location.None?
  {
    var path := ws.manifestPath(targetDir);
    var m := ws.manifests[path];
    var names := ScriptsToMap(m, scriptName);
    MapResolvesInOrigin(ws, targetDir, scriptName, fuel);
    forall i | 0 <= i < |names| && !HasPrefixFlag(names[i])
      ensures Resolve(ws, path, m, names[i], fuel).value.location.None?
    {
      DirectShape(ws, path, m, names[i], fuel);
    }
  }

  /**
   * `mapNpmScripts` takes the target directory's manifest as the origin: its
   * i-th result is the i-th mapped name resolved in that manifest.
   */
  lemma MapResolvesInOrigin(ws: Workspace, targetDir: string, scriptName: string, fuel: nat)
    requires MapNpmScripts(ws, targetDir, scriptName, fuel).Ok?
    ensures ws.manifestPath(targetDir) in ws.manifests
    ensures var path := ws.manifestPath(targetDir);
            var m := ws.manifests[path];
            var names := ScriptsToMap(m, scriptName);
            var r := MapNpmScripts(ws, targetDir, scriptName, fuel).value;
            && |r| == |names|
            && forall i :: 0 <= i < |names| ==> Resolve(ws, path, m, names[i], fuel) == Ok(r[i])
  {
    var path := ws.manifestPath(targetDir);
    ParseInOrder(ws, path, path, scriptName, fuel);
  }

  // ---------------------------------------------------------------------------
  // Fuel monotonicity
  // ---------------------------------------------------------------------------

  lemma ResolveUnfold(ws: Workspace, origin: string, m: Manifest, name: string, fuel: nat)
    requires fuel > 0
    ensures Resolve(ws, origin, m, name, fuel) == Follow(ws, origin, m, LookupOf(m, name), fuel - 1)
  {
    assert ResolveLookup(ws, origin, m, name, fuel - 1) == Follow(ws, origin, m, LookupOf(m, name), fuel - 1);
  }

  /**
   * Fuel is only a bound: a resolution that did not run out of fuel gives
   * the same result with any more fuel.
   */
  lemma ResolveFuelMonotone(ws: Workspace, origin: string, m: Manifest, name: string, f: nat, g: nat)
    requires f <= g
    ensures Resolve(ws, origin, m, name, f) == Err(OutOfFuel)
            || Resolve(ws, origin, m, name, g) == Resolve(ws, origin, m, name, f)
    decreases f, 0, 0
  {
    if f > 0 {
      ResolveUnfold(ws, origin, m, name, f);
      ResolveUnfold(ws, origin, m, name, g);
      FollowFuelMonotoneOr(ws, origin, m, LookupOf(m, name), f - 1, g - 1);
    }
  }

  lemma FollowFuelMonotoneOr(ws: Workspace, origin: string, m: Manifest, l: Lookup, f: nat, g: nat)
    requires f <= g
    ensures Follow(ws, origin, m, l, f) == Err(OutOfFuel)
            || Follow(ws, origin, m, l, g) == Follow(ws, origin, m, l, f)
    decreases f, 6, 0
  {
    if Follow(ws, origin, m, l, f) != Err(OutOfFuel) {
      FollowFuelMonotone(ws, origin, m, l, f, g);
    }
  }

  lemma {:induction false} FollowFuelMonotone(ws: Workspace, origin: string, m: Manifest, l: Lookup, f: nat, g: nat)
    requires f <= g && Follow(ws, origin, m, l, f) != Err(OutOfFuel)
    ensures Follow(ws, origin, m, l, g) == Follow(ws, origin, m, l, f)
    decreases f, 4, 0
  {
    match l
    case Redirect(dir, target) =>
      if dir.Ok? && ParseNpmScripts(ws, origin, ws.manifestPath(dir.value), target, f) != Err(OutOfFuel) {
        ParseFuelMonotone(ws, origin, ws.manifestPath(dir.value), target, f, g);
      }
    case Missing(_) =>
    case Found(_, _, key, steps) =>
      var actions := ResolveSteps(ws, origin, m, steps, f);
      if actions != Err(OutOfFuel) {
        StepsFuelMonotone(ws, origin, m, steps, f, g);
      }
      if actions.Ok? {
        var pre := ResolveHook(ws, origin, m, PreScriptPrefix, key, f);
        if pre != Err(OutOfFuel) {
          HookFuelMonotone(ws, origin, m, PreScriptPrefix, key, f, g);
        }
        if pre.Ok? && ResolveHook(ws, origin, m, PostScriptPrefix, key, f) != Err(OutOfFuel) {
          HookFuelMonotone(ws, origin, m, PostScriptPrefix, key, f, g);
        }
      }
  }

  lemma {:induction false} HookFuelMonotone(ws: Workspace, origin: string, m: Manifest, hook: string, key: string, f: nat, g: nat)
    requires f <= g && ResolveHook(ws, origin, m, hook, key, f) != Err(OutOfFuel)
    ensures ResolveHook(ws, origin, m, hook, key, g) == ResolveHook(ws, origin, m, hook, key, f)
    decreases f, 1, 0
  {
    ResolveFuelMonotone(ws, origin, m, hook + key, f, g);
  }

  lemma {:induction false} StepFuelMonotone(ws: Workspace, origin: string, m: Manifest, step: string, f: nat, g: nat)
    requires f <= g && ResolveStep(ws, origin, m, step, f) != Err(OutOfFuel)
    ensures ResolveStep(ws, origin, m, step, g) == ResolveStep(ws, origin, m, step, f)
    decreases f, 1, 0
  {
    if IsNestedScript(step) {
      ResolveFuelMonotone(ws, origin, m, NestedScriptName(step), f, g);
    }
  }

  lemma {:induction false} StepsFuelMonotone(ws: Workspace, origin: string, m: Manifest, steps: seq<string>, f: nat, g: nat)
    requires f <= g && ResolveSteps(ws, origin, m, steps, f) != Err(OutOfFuel)
    ensures ResolveSteps(ws, origin, m, steps, g) == ResolveSteps(ws, origin, m, steps, f)
    decreases f, 2, |steps|
  {
    if |steps| > 0 {
      var first := ResolveStep(ws, origin, m, steps[0], f);
      if first != Err(OutOfFuel) {
        StepFuelMonotone(ws, origin, m, steps[0], f, g);
      }
      if first.Ok? && ResolveSteps(ws, origin, m, steps[1..], f) != Err(OutOfFuel) {
        StepsFuelMonotone(ws, origin, m, steps[1..], f, g);
      }
    }
  }

  lemma {:induction false} AllFuelMonotone(ws: Workspace, origin: string, m: Manifest, names: seq<string>, f: nat, g: nat)
    requires f <= g && ResolveAll(ws, origin, m, names, f) != Err(OutOfFuel)
    ensures ResolveAll(ws, origin, m, names, g) == ResolveAll(ws, origin, m, names, f)
    decreases f, 2, |names|
  {
    if |names| > 0 {
      ResolveFuelMonotone(ws, origin, m, names[0], f, g);
      if Resolve(ws, origin, m, names[0], f).Ok? && ResolveAll(ws, origin, m, names[1..], f) != Err(OutOfFuel) {
        AllFuelMonotone(ws, origin, m, names[1..], f, g);
      }
    }
  }

  lemma {:induction false} ParseFuelMonotone(ws: Workspace, origin: string, path: string, desired: string, f: nat, g: nat)
    requires f <= g && ParseNpmScripts(ws, origin, path, desired, f) != Err(OutOfFuel)
    ensures ParseNpmScripts(ws, origin, path, desired, g) == ParseNpmScripts(ws, origin, path, desired, f)
    decreases f, 3, 0
  {
    if path in ws.manifests {
      var m := ws.manifests[path];
      var names := ScriptsToMap(m, desired);
      if ResolveAll(ws, origin, m, names, f) != Err(OutOfFuel) {
        AllFuelMonotone(ws, origin, m, names, f, g);
      }
    }
  }
}

=== FILE: results.dfy ===
/** Failure-compatible wrappers shared by the whole model. */
module Results {

  /** A value that may be absent: JavaScript's `undefined` for an optional field. */
  datatype Option<T> = None | Some(value: T)

  /** The outcome of an operation that can throw: `Err` carries what was thrown. */
  datatype Result<T, E> = Ok(value: T) | Err(error: E) {

    predicate IsFailure() {
      Err?
    }

    function PropagateFailure<U>(): Result<U, E>
      requires Err?
    {
      Err(error)
    }

    function Extract(): T
      requires Ok?
    {
      value
    }
  }
}

=== FILE: text.dfy ===
/**
 * The JavaScript string primitives the resolver relies on, over `seq<char>`:
 * the `\s` class, `trim`, `indexOf`, `split` with a string separator, and
 * `replace` of the first occurrence of a fixed pattern.
 */
module Text {
  import opened Results

  /** The line terminators of ECMAScript: the characters a regex `.` does not match. */
  predicate IsLineTerminator(c: char) {
    c == '\n' || c == '\r' || c == '\U{2028}' || c == '\U{2029}'
  }

  /**
   * ECMAScript white space plus line terminators. This is the regex class `\s`
   * and also exactly the set `String.prototype.trim` removes.
   */
  predicate IsWhitespace(c: char) {
    || IsLineTerminator(c)
    || c == ' ' || c == '\t' || c == '\U{0B}' || c == '\U{0C}'
    || c == '\U{A0}' || c == '\U{FEFF}' || c == '\U{1680}'
    || ('\U{2000}' <= c <= '\U{200A}')
    || c == '\U{202F}' || c == '\U{205F}' || c == '\U{3000}'
  }

  /** Removes leading white space. Its contract is `TrimStartSpec`. */
  function TrimStart(s: string): (r: string)
    ensures |r| <= |s|
  {
    if |s| > 0 && IsWhitespace(s[0]) then TrimStart(s[1..]) else s
  }

  /** Removes trailing white space. Its contract is `TrimEndSpec`. */
  function TrimEnd(s: string): (r: string)
    ensures |r| <= |s|
  {
    if |s| > 0 && IsWhitespace(s[|s| - 1]) then TrimEnd(s[..|s| - 1]) else s
  }

  /**
   * `String.prototype.trim`. Its contract is `TrimSpec`, a lemma rather than
   * postconditions so that trimmed terms stay inert in proofs that do not
   * need it.
   */
  function Trim(s: string): string {
    TrimEnd(TrimStart(s))
  }

  /** `TrimStart` drops exactly the leading run of white space. */
  lemma {:induction false} TrimStartSpec(s: string)
    ensures var r := TrimStart(s);
            && |r| <= |s| && r == s[|s| - |r|..]
            && (forall i :: 0 <= i < |s| - |r| ==> IsWhitespace(s[i]))
            && (|r| > 0 ==> !IsWhitespace(r[0]))
    decreases |s|
  {
    if |s| > 0 && IsWhitespace(s[0]) {
      TrimStartSpec(s[1..]);
      var r := TrimStart(s);
      forall i | 0 < i < |s| - |r|
        ensures IsWhitespace(s[i])
      {
        assert s[i] == s[1..][i - 1];
      }
    }
  }

  /** `TrimEnd` drops exactly the trailing run of white space. */
  lemma {:induction false} TrimEndSpec(s: string)
    ensures var r := TrimEnd(s);
            && |r| <= |s| && r == s[..|r|]
            && (forall i :: |r| <= i < |s| ==> IsWhitespace(s[i]))
            && (|r| > 0 ==> !IsWhitespace(r[|r| - 1]))
    decreases |s|
  {
    if |s| > 0 && IsWhitespace(s[|s| - 1]) {
      TrimEndSpec(s[..|s| - 1]);
      var r := TrimEnd(s);
      forall i | |r| <= i < |s| - 1
        ensures IsWhitespace(s[i])
      {
        assert s[i] == s[..|s| - 1][i];
      }
    }
  }

  /**
   * `String.prototype.trim`: the result is the infix of `s` left after removing
   * white space at both ends, and it neither starts nor ends with white space.
   */
  lemma TrimSpec(s: string)
    ensures var r := Trim(s);
            && |r| <= |s|
            && (|r| > 0 ==> !IsWhitespace(r[0]) && !IsWhitespace(r[|r| - 1]))
            && var i := |s| - |TrimStart(s)|;
            && i + |r| <= |s| && r == s[i..i + |r|]
            && (forall j :: 0 <= j < i ==> IsWhitespace(s[j]))
            && (forall j :: i + |r| <= j < |s| ==> IsWhitespace(s[j]))
  {
    TrimStartSpec(s);
    TrimEndSpec(TrimStart(s));
    TrimBothEnds(s);
    TrimEndWhitespace(s);
    TrimEndsNotWhitespace(s);
  }

  lemma TrimBothEnds(s: string)
    ensures var t := TrimStart(s);
            var r := TrimEnd(t);
            var i := |s| - |t|;
            i + |r| <= |s| && r == s[i..i + |r|]
  {
    TrimStartSpec(s);
    TrimEndSpec(TrimStart(s));
    var t := TrimStart(s);
    assert t == s[|s| - |t|..];
  }

  lemma TrimEndsNotWhitespace(s: string)
    ensures var r := TrimEnd(TrimStart(s));
            |r| > 0 ==> !IsWhitespace(r[0]) && !IsWhitespace(r[|r| - 1])
  {
    TrimStartSpec(s);
    TrimEndSpec(TrimStart(s));
    var t := TrimStart(s);
    var r := TrimEnd(t);
    if |r| > 0 {
      assert r[0] == t[0];
    }
  }

  lemma TrimEndWhitespace(s: string)
    ensures var t := TrimStart(s);
            var r := TrimEnd(t);
            var i := |s| - |t|;
            forall j :: i + |r| <= j < |s| ==> IsWhitespace(s[j])
  {
    TrimStartSpec(s);
    TrimEndSpec(TrimStart(s));
    var t := TrimStart(s);
    var r := TrimEnd(t);
    var i := |s| - |t|;
    assert t == s[i..];
    forall j | i + |r| <= j < |s|
      ensures IsWhitespace(s[j])
    {
      assert s[j] == t[j - i];
    }
  }

  /** A string without white space at either end is its own trim. */
  lemma TrimKeepsTrimmed(s: string)
    requires |s| > 0 ==> !IsWhitespace(s[0]) && !IsWhitespace(s[|s| - 1])
    ensures Trim(s) == s
  {
  }

  /** Trimming twice is trimming once. */
  lemma TrimIdempotent(s: string)
    ensures Trim(Trim(s)) == Trim(s)
  {
    TrimSpec(s);
    TrimKeepsTrimmed(Trim(s));
  }

  /** `pat` occurs in `s` starting at index `i`. */
  predicate OccursAt(s: string, pat: string, i: int) {
    0 <= i && i + |pat| <= |s| && s[i..i + |pat|] == pat
  }

  /** A one-character pattern occurs exactly where that character is. */
  lemma OccursAtChar(s: string, c: char, i: int)
    requires 0 <= i < |s|
    ensures OccursAt(s, [c], i) <==> s[i] == c
  {
    assert s[i..i + 1] == [s[i]];
  }

  /** `s.indexOf(pat, from)`: the first occurrence of `pat` at or after `from`. */
  function IndexOfFrom(s: string, pat: string, from: nat): (r: Option<nat>)
    requires from <= |s|
    ensures r.Some? ==> from <= r.value && OccursAt(s, pat, r.value)
    ensures forall j :: from <= j <= |s| && (r.None? || j < r.value) ==> !OccursAt(s, pat, j)
    decreases |s| - from
  {
    if OccursAt(s, pat, from) then Some(from)
    else if from == |s| then None
    else IndexOfFrom(s, pat, from + 1)
  }

  /** `s.indexOf(pat)`, with `None` for JavaScript's `-1`. */
  function IndexOf(s: string, pat: string): Option<nat> {
    IndexOfFrom(s, pat, 0)
  }

  /** `s.includes(pat)`, which is also `/pat/.test(s)` for a pattern without metacharacters. */
  predicate Contains(s: string, pat: string) {
    IndexOf(s, pat).Some?
  }

  lemma ContainsIffOccurs(s: string, pat: string, i: int)
    requires OccursAt(s, pat, i)
    ensures Contains(s, pat) && IndexOf(s, pat).value <= i
  {
  }

  /** An occurrence inside a prefix of `s` is an occurrence in `s`. */
  lemma OccursInPrefix(s: string, pat: string, n: nat, i: int)
    requires n <= |s| && OccursAt(s[..n], pat, i)
    ensures OccursAt(s, pat, i)
  {
    assert s[..n][i..i + |pat|] == s[i..i + |pat|];
  }

  /** An occurrence inside a suffix of `s` is an occurrence in `s`, shifted. */
  lemma OccursInSuffix(s: string, pat: string, n: nat, i: int)
    requires n <= |s| && OccursAt(s[n..], pat, i)
    ensures OccursAt(s, pat, n + i)
  {
    assert s[n..][i..i + |pat|] == s[n + i..n + i + |pat|];
  }

  /** An occurrence at or after `n` is an occurrence in the suffix from `n`, shifted. */
  lemma OccursAfterPrefix(s: string, pat: string, n: nat, i: int)
    requires n <= i && OccursAt(s, pat, i)
    ensures OccursAt(s[n..], pat, i - n)
  {
    assert s[n..][i - n..i - n + |pat|] == s[i..i + |pat|];
  }

  /** The text before the first occurrence of `pat` does not contain `pat`. */
  lemma NothingBeforeFirst(s: string, pat: string)
    requires |pat| > 0 && Contains(s, pat)
    ensures !Contains(s[..IndexOf(s, pat).value], pat)
  {
    var i := IndexOf(s, pat).value;
    if Contains(s[..i], pat) {
      var j := IndexOf(s[..i], pat).value;
      OccursInPrefix(s, pat, i, j);
    }
  }

  /**
   * `s.replace(pat, '')` for a pattern without metacharacters and without
   * the global flag: only the first occurrence is removed. Putting `pat` back
   * at that index restores `s`.
   */
  function RemoveFirst(s: string, pat: string): (r: string)
    ensures !Contains(s, pat) ==> r == s
    ensures Contains(s, pat) ==> |r| == |s| - |pat|
    ensures Contains(s, pat) ==>
              var i := IndexOf(s, pat).value;
              i <= |r| && s == r[..i] + pat + r[i..]
  {
    match IndexOf(s, pat)
    case None => s
    case Some(i) =>
      CutAt(s, i, |pat|);
      s[..i] + s[i + |pat|..]
  }

  /** The text from `i` on is its pieces up to `j`, from `j` up to `k`, and from `k` on. */
  lemma SliceAt(s: string, i: nat, j: nat, k: nat)
    requires i <= j <= k <= |s|
    ensures s[i..] == s[i..j] + s[j..k] + s[k..]
  {
    assert s[i..] == s[i..j] + s[j..];
    assert s[j..] == s[j..k] + s[k..];
  }

  /** Cutting `n` characters out at `i` leaves a string into which they can be put back. */
  lemma CutAt(s: string, i: nat, n: nat)
    requires i + n <= |s|
    ensures var r := s[..i] + s[i + n..];
            && |r| == |s| - n && i <= |r|
            && r[..i] == s[..i] && r[i..] == s[i + n..]
            && s == r[..i] + s[i..i + n] + r[i..]
  {
    var r := s[..i] + s[i + n..];
    assert r[..i] == s[..i] && r[i..] == s[i + n..];
    assert s == s[..i] + s[i..i + n] + s[i + n..];
  }

  /** Joins the pieces with `sep` between consecutive ones: `pieces.join(sep)`. */
  function Join(pieces: seq<string>, sep: string): string {
    if |pieces| == 0 then ""
    else if |pieces| == 1 then pieces[0]
    else pieces[0] + sep + Join(pieces[1..], sep)
  }

  /**
   * `s.split(sep)` for a non-empty separator string: cut at every
   * non-overlapping occurrence, scanning left to right. There is always at
   * least one piece, no piece contains the separator, and the first piece
   * is the text before the first occurrence.
   */
  function Split(s: string, sep: string): (pieces: seq<string>)
    requires |sep| > 0
    ensures |pieces| >= 1
    ensures |pieces| >= 2 <==> Contains(s, sep)
    ensures forall k :: 0 <= k < |pieces| ==> !Contains(pieces[k], sep)
    ensures pieces[0] == if Contains(s, sep) then s[..IndexOf(s, sep).value] else s
    decreases |s|
  {
    match IndexOf(s, sep)
    case None => [s]
    case Some(i) =>
      NothingBeforeFirst(s, sep);
      [s[..i]] + Split(s[i + |sep|..], sep)
  }

  /** Splitting and joining back with the same separator restores the string. */
  lemma {:induction false} JoinSplit(s: string, sep: string)
    requires |sep| > 0
    ensures Join(Split(s, sep), sep) == s
    decreases |s|
  {
    match IndexOf(s, sep)
    case None =>
    case Some(i) =>
      var rest := s[i + |sep|..];
      SplitAtFirst(s, sep, i);
      JoinSplit(rest, sep);
      JoinCons(s[..i], Split(rest, sep), sep);
  }

  lemma SplitAtFirst(s: string, sep: string, i: nat)
    requires |sep| > 0 && IndexOf(s, sep) == Some(i)
    ensures i + |sep| <= |s|
    ensures Split(s, sep) == [s[..i]] + Split(s[i + |sep|..], sep)
    ensures s == s[..i] + sep + s[i + |sep|..]
  {
    OccurrenceSplits(s, sep, i);
  }

  /** An occurrence of `sep` at `i` cuts `s` into the text before it, `sep` and the text after it. */
  lemma OccurrenceSplits(s: string, sep: string, i: nat)
    requires OccursAt(s, sep, i)
    ensures i + |sep| <= |s|
    ensures s == s[..i] + sep + s[i + |sep|..]
  {
    assert s[i..i + |sep|] == sep;
    assert s == s[..i] + s[i..i + |sep|] + s[i + |sep|..];
  }

  lemma JoinCons(first: string, rest: seq<string>, sep: string)
    requires |rest| >= 1
    ensures Join([first] + rest, sep) == first + sep + Join(rest, sep)
  {
    assert ([first] + rest)[1..] == rest;
  }

  /** Where piece `k` starts when `pieces` are laid out with `sep` between consecutive ones. */
  function PieceStart(pieces: seq<string>, sep: string, k: nat): nat
    requires k <= |pieces|
  {
    if k == 0 then 0 else PieceStart(pieces, sep, k - 1) + |pieces[k - 1]| + |sep|
  }

  /**
   * `piece` is the text of `s` at `st`, and the left-to-right search for
   * `sep` from `st` finds the end of the piece, or nothing at all when it is
   * the last piece, which then runs to the end of `s`.
   */
  predicate PieceFrom(s: string, sep: string, st: nat, piece: string, last: bool) {
    && st + |piece| <= |s|
    && s[st..st + |piece|] == piece
    && (!last ==> IndexOfFrom(s, sep, st) == Some(st + |piece|))
    && (last ==> IndexOfFrom(s, sep, st).None? && st + |piece| == |s|)
  }

  predicate PieceAt(s: string, sep: string, pieces: seq<string>, k: nat)
    requires k < |pieces|
  {
    PieceFrom(s, sep, PieceStart(pieces, sep, k), pieces[k], k + 1 == |pieces|)
  }

  /** `pieces` is the result of cutting `s` at the leftmost `sep` from each piece's start on. */
  predicate CutsOf(s: string, sep: string, pieces: seq<string>) {
    |pieces| >= 1 && forall k: nat :: k < |pieces| ==> PieceAt(s, sep, pieces, k)
  }

  /**
   * `split` scans left to right: every cut is the first occurrence of the
   * separator at or after the start of its piece, and the last piece holds
   * no occurrence and runs to the end.
   */
  lemma {:induction false} SplitCuts(s: string, sep: string)
    requires |sep| > 0
    ensures CutsOf(s, sep, Split(s, sep))
    decreases |s|
  {
    match IndexOf(s, sep)
    case None =>
      assert s[0..|s|] == s;
      assert PieceAt(s, sep, Split(s, sep), 0);
    case Some(i) =>
      var rest := s[i + |sep|..];
      SplitAtFirst(s, sep, i);
      SplitCuts(rest, sep);
      var ps := Split(s, sep);
      forall k: nat | k < |ps|
        ensures PieceAt(s, sep, ps, k)
      {
        PieceAtCons(s, sep, i, Split(rest, sep), k);
      }
  }

  lemma PieceAtCons(s: string, sep: string, i: nat, t: seq<string>, k: nat)
    requires |sep| > 0 && IndexOf(s, sep) == Some(i) && i + |sep| <= |s|
    requires CutsOf(s[i + |sep|..], sep, t)
    requires k < |t| + 1
    ensures PieceAt(s, sep, [s[..i]] + t, k)
  {
    if k == 0 {
      assert s[0..i] == s[..i];
    } else {
      assert PieceAt(s[i + |sep|..], sep, t, k - 1);
      PieceAtLater(s, sep, s[..i], t, k);
    }
  }

  lemma PieceAtLater(s: string, sep: string, first: string, t: seq<string>, k: nat)
    requires |first| + |sep| <= |s|
    requires 1 <= k < |t| + 1
    requires PieceAt(s[|first| + |sep|..], sep, t, k - 1)
    ensures PieceAt(s, sep, [first] + t, k)
  {
    var a := |first| + |sep|;
    var st := PieceStart(t, sep, k - 1);
    PieceStartCons(first, t, sep, k);
    var ps := [first] + t;
    assert |ps| == |t| + 1 && ps[k] == t[k - 1];
    ShiftedPiece(s, sep, a, st, t[k - 1], k - 1 + 1 == |t|, PieceStart(ps, sep, k), ps[k], k + 1 == |ps|);
  }

  /** A piece found in the suffix from `a` on is the same piece of `s`, `a` further on. */
  lemma ShiftedPiece(s: string, sep: string, a: nat, st: nat, piece: string, last: bool,
                     st': nat, piece': string, last': bool)
    requires a <= |s| && PieceFrom(s[a..], sep, st, piece, last)
    requires st' == a + st && piece' == piece && last' == last
    ensures PieceFrom(s, sep, st', piece', last')
  {
    assert s[a + st..a + st + |piece|] == s[a..][st..st + |piece|];
    IndexOfFromShift(s, sep, a, st);
  }

  /**
   * Conversely, the cuts determine the pieces: any list laid out in `s` by
   * leftmost cuts is the split.
   */
  lemma {:induction false} CutsDetermineSplit(s: string, sep: string, ps: seq<string>)
    requires |sep| > 0 && CutsOf(s, sep, ps)
    ensures ps == Split(s, sep)
    decreases |s|
  {
    assert PieceAt(s, sep, ps, 0);
    FirstCut(s, sep, ps);
    if |ps| > 1 {
      var i := |ps[0]|;
      SplitAtFirst(s, sep, i);
      LaterCuts(s, sep, ps);
      CutsDetermineSplit(s[i + |sep|..], sep, ps[1..]);
      assert ps == [ps[0]] + ps[1..];
    }
  }

  lemma FirstCut(s: string, sep: string, ps: seq<string>)
    requires |ps| >= 1 && PieceAt(s, sep, ps, 0)
    ensures |ps| == 1 ==> IndexOf(s, sep).None? && ps == [s]
    ensures |ps| > 1 ==> IndexOf(s, sep) == Some(|ps[0]|) && |ps[0]| + |sep| <= |s| && ps[0] == s[..|ps[0]|]
  {
    assert s[0..|ps[0]|] == s[..|ps[0]|];
    if |ps| == 1 {
      assert s[..|s|] == s;
    }
  }

  lemma LaterCuts(s: string, sep: string, ps: seq<string>)
    requires CutsOf(s, sep, ps) && |ps| >= 2 && |ps[0]| + |sep| <= |s|
    ensures CutsOf(s[|ps[0]| + |sep|..], sep, ps[1..])
  {
    var rest := s[|ps[0]| + |sep|..];
    var t := ps[1..];
    forall k: nat | k < |t|
      ensures PieceAt(rest, sep, t, k)
    {
      assert PieceAt(s, sep, ps, k + 1);
      UnshiftPiece(s, sep, ps, k + 1);
    }
  }

  lemma UnshiftPiece(s: string, sep: string, ps: seq<string>, k: nat)
    requires 1 <= k < |ps| && |ps[0]| + |sep| <= |s|
    requires PieceAt(s, sep, ps, k)
    ensures PieceAt(s[|ps[0]| + |sep|..], sep, ps[1..], k - 1)
  {
    var a := |ps[0]| + |sep|;
    var t := ps[1..];
    assert ps == [ps[0]] + t;
    PieceStartCons(ps[0], t, sep, k);
    UnshiftedPiece(s, sep, a, PieceStart(ps, sep, k), ps[k], k + 1 == |ps|,
                   PieceStart(t, sep, k - 1), t[k - 1], k - 1 + 1 == |t|);
  }

  /** A piece of `s` at or after `a` is the same piece of the suffix from `a` on, `a` earlier. */
  lemma UnshiftedPiece(s: string, sep: string, a: nat, st': nat, piece': string, last': bool,
                       st: nat, piece: string, last: bool)
    requires a <= |s| && PieceFrom(s, sep, st', piece', last')
    requires st' == a + st && piece' == piece && last' == last
    ensures PieceFrom(s[a..], sep, st, piece, last)
  {
    assert s[a + st..a + st + |piece|] == s[a..][st..st + |piece|];
    IndexOfFromShift(s, sep, a, st);
  }

  lemma {:induction false} PieceStartCons(first: string, rest: seq<string>, sep: string, k: nat)
    requires 1 <= k <= |rest| + 1
    ensures PieceStart([first] + rest, sep, k) == |first| + |sep| + PieceStart(rest, sep, k - 1)
  {
    if k > 1 {
      PieceStartCons(first, rest, sep, k - 1);
      assert ([first] + rest)[k - 1] == rest[k - 2];
    }
  }

  /** Searching a suffix finds the same occurrences, shifted by where the suffix begins. */
  lemma {:induction false} IndexOfFromShift(s: string, pat: string, a: nat, b: nat)
    requires a + b <= |s|
    ensures IndexOfFrom(s[a..], pat, b).None? <==> IndexOfFrom(s, pat, a + b).None?
    ensures IndexOfFrom(s[a..], pat, b).Some? ==>
              IndexOfFrom(s, pat, a + b) == Some(a + IndexOfFrom(s[a..], pat, b).value)
    decreases |s| - a - b
  {
    OccursAtShift(s, pat, a, b);
    if !OccursAt(s, pat, a + b) && a + b < |s| {
      IndexOfFromShift(s, pat, a, b + 1);
    }
  }

  lemma OccursAtShift(s: string, pat: string, a: nat, j: nat)
    requires a <= |s|
    ensures OccursAt(s[a..], pat, j) <==> OccursAt(s, pat, a + j)
  {
    if a + j + |pat| <= |s| {
      assert s[a..][j..j + |pat|] == s[a + j..a + j + |pat|];
    }
  }

  /** The second piece of a split is the first piece of the text after the first separator. */
  lemma SplitSecond(s: string, sep: string)
    requires |sep| > 0 && Contains(s, sep)
    ensures var i := IndexOf(s, sep).value;
            Split(s, sep)[1] == Split(s[i + |sep|..], sep)[0]
  {
  }
}

=== FILE: tokenizer.dfy ===
/**
 * Turning one command string into a name and an ordered list of flags
 * (`extractParamsFromActionStr` and `getSingleCommandObject` in
 * `src/index.js`).
 */
module Tokenizer {
  import opened Results
  import opened Text
  import opened Patterns
  import opened Actions

  /** `s` does not contain the character `c`. */
  predicate Lacks(s: string, c: char) {
    c !in s
  }

  /** A single character occurs in `s` exactly when the one-character string does. */
  lemma SingleCharIndex(s: string, c: char)
    ensures Contains(s, [c]) <==> c in s
    ensures Contains(s, [c]) ==> var i := IndexOf(s, [c]).value;
              i < |s| && s[i] == c && c !in s[..i]
  {
    if c in s {
      var i :| 0 <= i < |s| && s[i] == c;
      assert s[i..i + 1] == [c];
      assert OccursAt(s, [c], i);
    }
    if Contains(s, [c]) {
      var i := IndexOf(s, [c]).value;
      assert s[i..i + 1] == [c];
      assert s[i] == s[i..i + 1][0];
      forall j | 0 <= j < i
        ensures s[..i][j] != c
      {
        assert !OccursAt(s, [c], j);
        assert s[j..j + 1] == [s[j]];
      }
    }
  }

  /** The first piece of `s.split(sep)` for a one-character separator. */
  lemma FirstPieceOfSplit(s: string, c: char, head: string)
    requires head == Split(s, [c])[0]
    ensures && |head| <= |s| && s[..|head|] == head && Lacks(head, c)
            && (c in s <==> |head| < |s|)
            && (|head| < |s| ==> s[|head|] == c)
  {
    SingleCharIndex(s, c);
    if Contains(s, [c]) {
      var i := IndexOf(s, [c]).value;
      assert Split(s, [c])[0] == s[..i];
    }
  }

  /**
   * Splits one flag span into name and value. A span with `=` is split on
   * `=`, any other on single spaces (`EQUAL_SIGN_REGEX`, then `split`); only
   * the first two pieces are kept, and a missing second piece leaves the
   * value `undefined`.
   */
  function SplitParam(span: string): (p: Param)
    ensures SplitLayout(span, if '=' in span then '=' else ' ', p)
  {
    SplitOn(span, if '=' in span then '=' else ' ')
  }

  /**
   * `p` holds the first two pieces of `span.split(sep)`: the name is the
   * text before the first `sep` (all of `span` when there is none), and the
   * value, present exactly when `sep` occurs, is the text from there to the
   * next `sep` or the end.
   */
  predicate SplitLayout(span: string, sep: char, p: Param) {
    && |p.name| <= |span| && span[..|p.name|] == p.name && Lacks(p.name, sep)
    && (p.value.None? <==> sep !in span)
    && (sep !in span ==> p.name == span)
    && (p.value.Some? ==>
          var v := p.value.value;
          var after := |p.name| + 1;
          && span[|p.name|] == sep
          && after + |v| <= |span| && span[after..after + |v|] == v && Lacks(v, sep)
          && (after + |v| == |span| || span[after + |v|] == sep))
  }

  /** `span.split(sep)` keeping the first two pieces as name and value. */
  function SplitOn(span: string, sep: char): (p: Param)
    ensures SplitLayout(span, sep, p)
  {
    var pieces := Split(span, [sep]);
    var p := if sep in span then
        SplitHasSecond(span, sep);
        Param(pieces[0], Some(pieces[1]))
      else
        Param(pieces[0], None);
    ParamFromPieces(span, sep, p);
    p
  }

  /** A parameter made of the first two pieces of a split on `sep` lies in the span as those pieces do. */
  lemma ParamFromPieces(span: string, sep: char, p: Param)
    requires p.name == Split(span, [sep])[0]
    requires sep in span ==> |Split(span, [sep])| >= 2 && p.value == Some(Split(span, [sep])[1])
    requires sep !in span ==> p.value.None?
    ensures SplitLayout(span, sep, p)
  {
    FirstPieceOfSplit(span, sep, p.name);
    if sep in span {
      SecondPieceOfSplit(span, sep, p.name, p.value.value);
    }
  }

  /** The second piece of a split on a present character lies right after the first separator. */
  lemma SecondPieceOfSplit(s: string, c: char, n: string, v: string)
    requires c in s && |Split(s, [c])| >= 2
    requires n == Split(s, [c])[0] && v == Split(s, [c])[1]
    ensures var after := |n| + 1;
            && after + |v| <= |s| && s[after..after + |v|] == v && Lacks(v, c)
            && (after + |v| == |s| || s[after + |v|] == c)
  {
    SingleCharIndex(s, c);
    var i := IndexOf(s, [c]).value;
    assert n == s[..i];
    SplitSecond(s, [c]);
    var rest := s[i + 1..];
    FirstPieceOfSplit(rest, c, v);
    assert s[|n| + 1..|n| + 1 + |v|] == rest[..|v|];
    if |n| + 1 + |v| < |s| {
      assert s[|n| + 1 + |v|] == rest[|v|];
    }
  }

  /** Splitting on a character that occurs gives at least two pieces. */
  lemma SplitHasSecond(s: string, c: char)
    requires c in s
    ensures |Split(s, [c])| >= 2
  {
    SingleCharIndex(s, c);
  }

  /** A bare flag (no `=`, no space) is all name and its value is `undefined`. */
  lemma SplitParamBare(span: string)
    requires '=' !in span && ' ' !in span
    ensures SplitParam(span) == Param(span, None)
  {
  }

  /**
   * A span with `=` keeps only the text between the first and the second
   * `=` as its value: `--a=b=c` has the value `b`.
   */
  lemma SplitParamOnEquals(name: string, v: string, rest: string)
    requires '=' !in name && '=' !in v
    requires rest == "" || rest[0] == '='
    ensures SplitParam(name + "=" + v + rest) == Param(name, Some(v))
  {
    var span := name + "=" + v + rest;
    var after := |name| + 1;
    assert span[..|name|] == name && span[|name|] == '=';
    assert span[after..after + |v|] == v;
    assert after + |v| == |span| || span[after + |v|] == rest[0];
    ValueBetweenEquals(span, |name|, after + |v|);
  }

  /** The name of a span whose first `=` is at `k` is the text before it. */
  lemma NameBeforeEquals(span: string, k: nat)
    requires k < |span| && span[k] == '=' && '=' !in span[..k]
    ensures SplitParam(span).name == span[..k] && SplitParam(span).value.Some?
  {
    PieceBeforeSeparator(span, span[..k], SplitParam(span).name, '=');
  }

  /** The value of a span whose first `=` is at `k` runs up to the next `=` at `e`, or the end. */
  lemma ValueBetweenEquals(span: string, k: nat, e: nat)
    requires k < e <= |span| && span[k] == '=' && '=' !in span[..k]
    requires '=' !in span[k + 1..e] && (e == |span| || span[e] == '=')
    ensures SplitParam(span) == Param(span[..k], Some(span[k + 1..e]))
  {
    NameBeforeEquals(span, k);
    var w := SplitParam(span).value.value;
    var tail := span[k + 1..];
    assert tail[..|w|] == span[k + 1..k + 1 + |w|];
    assert tail[..e - k - 1] == span[k + 1..e];
    PieceBeforeSeparator(tail, span[k + 1..e], w, '=');
  }

  /** Two prefixes of `s` that avoid `c` and each end at a `c` or at the end of `s` are the same. */
  lemma PieceBeforeSeparator(s: string, a: string, b: string, c: char)
    requires c !in a && c !in b
    requires |a| <= |s| && s[..|a|] == a && (|a| == |s| || s[|a|] == c)
    requires |b| <= |s| && s[..|b|] == b && (|b| == |s| || s[|b|] == c)
    ensures a == b
  {
  }

  /**
   * A span without `=` is split on single spaces, so two spaces after the
   * name make the value the empty string, whatever follows.
   */
  lemma SplitParamDoubledSpace(name: string, rest: string)
    requires ' ' !in name && '=' !in name && '=' !in rest
    ensures SplitParam(name + "  " + rest) == Param(name, Some(""))
  {
    var span := name + "  " + rest;
    assert span[|name|] == ' ' && span[|name| + 1] == ' ';
    assert forall j :: 0 <= j < |name| ==> span[j] == name[j];
  }

  /** `${config[prop]}` in a template: a missing property renders as "undefined". */
  function ConfigText(config: map<string, string>, prop: string): string {
    if prop in config then config[prop] else "undefined"
  }

  /** The text appended to a value resolved from the configuration. */
  function ConfigNote(prop: string): string {
    " (from npm configuration named \"" + prop + "\")"
  }

  /**
   * A flag value that references the configuration becomes the configured
   * value followed by a note naming the property; a missing property is
   * not an error. Any other value is unchanged.
   */
  function ResolveConfigValue(value: string, config: map<string, string>): (r: string)
    ensures !HasConfigMarker(value) ==> r == value
    ensures HasConfigMarker(value) ==>
              var prop := ConfigProp(value);
              var note := ConfigNote(prop);
              && |r| >= |note| && r[|r| - |note|..] == note
              && r[..|r| - |note|] == (if prop in config then config[prop] else "undefined")
  {
    if HasConfigMarker(value) then
      var prop := ConfigProp(value);
      var r := ConfigText(config, prop) + ConfigNote(prop);
      assert r[..|r| - |ConfigNote(prop)|] == ConfigText(config, prop);
      r
    else
      value
  }

  /**
   * A value that is exactly `$npm_package_config_<prop>` renders as the
   * configured value of `prop`, or "undefined" when there is none, followed
   * by a note naming `prop`.
   */
  lemma ConfigReferenceResolved(prop: string, config: map<string, string>)
    ensures ResolveConfigValue(ConfigMarker + prop, config)
            == (if prop in config then config[prop] else "undefined")
               + " (from npm configuration named \"" + prop + "\")"
  {
    var x := ConfigText(config, prop);
    ConfigPropOfReference(prop);
    ResolvedReference(ConfigMarker + prop, prop, config);
    assert x + ConfigNote(prop) == x + " (from npm configuration named \"" + prop + "\")";
  }

  /** A value that references the property `prop` renders as its configuration text and note. */
  lemma ResolvedReference(v: string, prop: string, config: map<string, string>)
    requires HasConfigMarker(v) && ConfigProp(v) == prop
    ensures ResolveConfigValue(v, config) == ConfigText(config, prop) + ConfigNote(prop)
  {
  }

  /** One flag span as a parameter, with a configuration reference in its value resolved. */
  function ParamOf(span: string, config: map<string, string>): (p: Param)
    ensures p.name == SplitParam(span).name
    ensures p.value.Some? <==> SplitParam(span).value.Some?
    ensures SplitParam(span).value.Some? ==> p.value.value == ResolveConfigValue(SplitParam(span).value.value, config)
  {
    var raw := SplitParam(span);
    match raw.value
    case None => raw
    case Some(v) => Param(raw.name, Some(ResolveConfigValue(v, config)))
  }

  /**
   * A flag written `name=$npm_package_config_<prop>` is the parameter
   * `name` whose value is the rendered configuration value of `prop`.
   */
  lemma ParamOfConfigReference(name: string, prop: string, config: map<string, string>)
    requires '=' !in name && '=' !in prop
    ensures ParamOf(name + "=" + (ConfigMarker + prop), config)
            == Param(name, Some((if prop in config then config[prop] else "undefined")
                                + " (from npm configuration named \"" + prop + "\")"))
  {
    var v := ConfigMarker + prop;
    forall k | 0 <= k < |v|
      ensures v[k] != '='
    {
      if k >= |ConfigMarker| {
        assert v[k] == prop[k - |ConfigMarker|];
      }
    }
    SplitParamOnEquals(name, v, "");
    assert name + "=" + v + "" == name + "=" + v;
    ConfigReferenceResolved(prop, config);
  }

  /**
   * `extractParamsFromActionStr`: one parameter per flag span of `s`, in
   * source order. Every name begins with the span's dash.
   */
  function ExtractParams(s: string, config: map<string, string>): (ps: seq<Param>)
    ensures |ps| == |FlagStarts(s)|
    ensures forall k :: 0 <= k < |ps| ==> ps[k] == ParamOf(FlagSpanAt(s, FlagStarts(s)[k]), config)
    ensures forall k :: 0 <= k < |ps| ==> |ps[k].name| > 0 && ps[k].name[0] == '-'
  {
    FlagSpansAreFlagStarts(s);
    var spans := FlagSpans(s);
    var ps := seq(|spans|, k requires 0 <= k < |spans| => ParamOf(spans[k], config));
    ParamNamesStartWithDash(s, config, ps);
    ps
  }

  lemma ParamNamesStartWithDash(s: string, config: map<string, string>, ps: seq<Param>)
    requires |ps| == |FlagStarts(s)|
    requires forall k :: 0 <= k < |ps| ==> ps[k] == ParamOf(FlagSpanAt(s, FlagStarts(s)[k]), config)
    ensures forall k :: 0 <= k < |ps| ==> |ps[k].name| > 0 && ps[k].name[0] == '-'
  {
    forall k | 0 <= k < |ps|
      ensures |ps[k].name| > 0 && ps[k].name[0] == '-'
    {
      var span := FlagSpanAt(s, FlagStarts(s)[k]);
      assert span[0] == '-';
      SplitParamKeepsDash(span);
    }
  }

  /** A span that begins with a dash yields a name that begins with it. */
  lemma SplitParamKeepsDash(span: string)
    requires |span| > 0 && span[0] == '-'
    ensures var n := SplitParam(span).name; |n| > 0 && n[0] == '-'
  {
  }

  /**
   * `getSingleCommandObject`: a command string without flags is a command
   * of that exact name with no parameters; otherwise its name is the text
   * before the first flag on that flag's line (untrimmed) and it carries one
   * parameter per flag span.
   */
  function SingleCommand(raw: string, config: map<string, string>): (a: Action)
    ensures a.Command?
    ensures !HasFlags(raw) ==> a == Command(raw, [])
    ensures HasFlags(raw) ==>
              && |FlagStarts(raw)| > 0
              && var p := FlagStarts(raw)[0];
              && a.name == raw[LineStart(raw, p - 1)..p - 1]
              && a.params == ExtractParams(raw, config)
  {
    if HasFlags(raw) then
      CommandNameBeforeFirstFlag(raw);
      Command(CommandName(raw).value, ExtractParams(raw, config))
    else
      Command(raw, [])
  }
}
